=== FILE: README.md ===
# Class rebalancing, grade labels and academic terms, in Dafny

This project models the core of a small school-administration toolkit:

- **The roster rebalancer** (`process_grade_data`, present with identical bodies in
  `filter_students.py` and `manager_students.py`). For one grade, every class has a target
  headcount.
  - **Contraction.** A class over target keeps its first `target` rows. It puts the rest, in
    row order and tagged with their class, on a spare pool shared by the grade.
  - **Expansion.** In class order, each class under target pops spares from the front of the
    pool, relabels them and appends them. It stops when it reaches target or the pool is empty.
  - **Deletion.** Spares nobody took are logged as deleted ('彻底删除').
  - **Outputs.** One summary entry per class ('原' count, '实' target, status) and a change log
    ('借调变动' relocations, then deletions).
  - **Driver.** The loop runs the rebalancer once per grade, in the order the grades first
    appear in the sorted class list, and concatenates the results.
- **Grade and class labels.**
  - `extract_number` reads the first run of digits in a label.
  - `generate_grade_map` maps grade labels to a school level and a display name such as '三年级'.
    It handles both enrolment-year labels ('2019级') and level labels ('3年级').
  - `get_class_sort_key` and `format_class_name` build a class's sort key and its display name.
- **The academic-term rule** (`get_academic_info` in `auto_nutrition.py`). It maps a date to
  an academic-year label 'y-(y+1)' and to the autumn semester (September to January) or the
  spring semester (February to August). A companion function reads the date back from a data
  file's name.

Modules:

- `Wrappers`: `Option`.
- `Numerals`: ASCII digits, decimal rendering, `ExtractNumber`.
- `GradeLabels`: the grade map, sort keys and display names.
- `AcademicTerm`: the term rule and the date prefix of a file name.
- `Rebalance`: the data model and the rebalancer as functions. It is the specification.
- `Rebalancer`: the rebalancer as the program runs it. It uses a list popped from the front,
  a dictionary of cores, summary entries updated in place, and counters. Every method is
  proved to compute what `Rebalance` specifies.
- `RebalanceProofs`: what the specification guarantees:
  - conservation of rows;
  - prefix-keep / suffix-donate;
  - FIFO assignment of the pool;
  - the meaning of every status;
  - the no-op case;
  - idempotence;
  - the per-grade driver.

Rows are modelled as a class label plus every other column (`Fields`), so "only the class
changed" reads as "the fields are equal". The name and ID columns are optional. A missing
name is reported as '未知' and a missing ID as ''. Statuses are kept as a datatype and
`StatusText` gives the text the program writes for each. A change record carries the
operation text itself, '借调变动' or '彻底删除', as `OpText` gives it.

Within a grade, classes are visited in the order their labels first appear in the grade's
rows (`grade_df['班级'].unique()`, filter_students.py:85 and manager_students.py:132), not in
the order of the sorted class list. `Rebalance.Classes` is that first-appearance order.

## Model

| member | source | states |
|---|---|---|
| `Numerals.FirstRunIsExtracted` | filter_students.py:28-30 | for any digit-free prefix, a non-empty digit run and a suffix not starting with a digit, the extracted number is the value of that run |
| `Numerals.NoDigitsYieldZero` | manager_students.py:89-91 | a label without any digit extracts to 0 |
| `Numerals.ExtractedIsFirstRun` | filter_students.py:28-30 | a label with a digit extracts to the value of its first maximal digit run: no digit before it, and a non-digit or the end after it |
| `Numerals.LeadingRun` | filter_students.py:29 | the maximal run of digits at the start of a text: all digits, and followed by a non-digit or the end |
| `Numerals.Decimal` | filter_students.py:56 | `str(n)`: a non-empty digit string whose value is n, with no leading zero; exactly "0" for 0 |
| `Numerals.DecimalIsExtracted` | filter_students.py:72 | a rendered number followed by any text extracts back to that number |
| `GradeLabels.GradeMapOf` | filter_students.py:33-59 | exactly the grade labels with a positive number are mapped; each level is at least 1 and its name is the level's numeral followed by '年级' |
| `GradeLabels.GenerateGradeMap` | manager_students.py:94-111 | the two loops of generate_grade_map build exactly the map `GradeMapOf` describes |
| `GradeLabels.CollectNumbered` | filter_students.py:38-41 | the collected pairs are grade labels with their positive number, and every numbered label is collected |
| `GradeLabels.LargestNumber` | filter_students.py:45 | the result bounds every collected number and is one of them |
| `GradeLabels.RecordLevels` | filter_students.py:46-57 | every collected label gets an entry, and each entry is the one `GradeMapOf` gives |
| `GradeLabels.MaxNumber` | manager_students.py:102 | the largest extracted number, attained by some label (or 0 when none has one) |
| `GradeLabels.LevelRule` | filter_students.py:47-55 | level = max - num + 1 when the largest number exceeds 1900, otherwise num |
| `GradeLabels.YearFormatOrder` | manager_students.py:104-108 | with enrolment years, an earlier year has a higher level and the latest year is level 1 |
| `GradeLabels.GradeMapEntry` | filter_students.py:51-57 | a numbered label maps to its level and the display name of that level |
| `GradeLabels.Numeral` | filter_students.py:49-56 | the Chinese numeral (one non-digit character) for levels 1-9, exactly `Decimal(level)` (str(level), no leading zero) otherwise; either way the level reads back from it |
| `GradeLabels.GradeNameReadsBack` | filter_students.py:56 | a display name ends in '年级' and the level reads back from what precedes it |
| `GradeLabels.GradeNameInjective` | filter_students.py:49-56 | different levels never share a display name |
| `GradeLabels.LevelOf` | filter_students.py:47-55 | a positive number gets a level of at least 1; with enrolment years the level is 1 exactly for the largest number, otherwise the level is the number |
| `GradeLabels.GradePart` | filter_students.py:70 | the mapped display name when the grade is in the map, the raw grade label otherwise |
| `GradeLabels.ClassSortKey` | filter_students.py:62-66 | the grade part is the mapped level, or 999 when the grade is unmapped; the class part is the class number, or 999 when it has none |
| `GradeLabels.ClassOrder` | manager_students.py:114-118 | within a grade, numbered classes sort by number, and numbered classes below 999 sort before unnumbered ones (which get 999); a mapped grade below 999 sorts before an unmapped one |
| `GradeLabels.ClassPart` | manager_students.py:123-124 | "<n>班" with n the class label's number when that is positive, the raw class label when it is 0; either way it carries the label's number |
| `GradeLabels.FormatClassName` | filter_students.py:69-73 | the grade part (mapped name or raw grade), a space, then exactly the class part, whose number is the class label's number |
| `AcademicTerm.GetAcademicInfo` | auto_nutrition.py:25-41 | no result exactly when the date does not parse; otherwise the label spans the academic year that began in the last September, and the semester name is the autumn one exactly for months 9-12 and 1 |
| `AcademicTerm.SemesterName` | auto_nutrition.py:34-38 | a four-character name ending in '季学期' whose first character is '秋' for autumn and '春' for spring |
| `AcademicTerm.StartYear` | auto_nutrition.py:33-38 | for a real month, the date lies between September of the start year and August of the year after |
| `AcademicTerm.YearSpanReadsBack` | auto_nutrition.py:34-38 | the label `YearSpan` builds names two consecutive years: first before the '-', first + 1 after it |
| `AcademicTerm.OneAcademicYear` | auto_nutrition.py:33-38 | an autumn month, the January after it and the spring after it share one label; the first two carry the autumn name and the last the spring name |
| `AcademicTerm.DatePrefix` | auto_nutrition.py:132 | the prefix of the file name before its first '.', or the whole name when there is none |
| `AcademicTerm.DatePrefixOfFileName` | auto_nutrition.py:130-133 | the date part of a file named "date.extension" is read back unchanged |
| `Rebalance.Roster` | filter_students.py:92 | the rows of one class: all carry its label and there are no more of them than rows |
| `Rebalance.Classes` | filter_students.py:85 | the class labels without repetition, covering every row's label |
| `Rebalance.StatusText` | filter_students.py:104-145 | the five status texts differ in their first character; the first number in '移出', '借入' and '借入 … (仍缺…)' texts is the count moved out or borrowed, and '待定'/'无变化' hold no number |
| `Rebalance.ShortfallReadsBack` | filter_students.py:142 | the shortfall of '借入 n (仍缺m)' is written between '缺' and the closing ')' |
| `Rebalance.OpText` | filter_students.py:126-153 | the two operation texts are four characters long and differ in their first character: '借' for a relocation, '彻' for a deletion; they are the `op` field of the change records |
| `Rebalance.Tag` | filter_students.py:100-103 | each spare row is tagged with the class it leaves, in row order |
| `Rebalance.Taken` | filter_students.py:119-133 | a class never takes more spares than the pool holds or than it needs |
| `Rebalance.Settle` | filter_students.py:139-145 | only the status changes. Under target: '借入 k' exactly when k reaches the need, otherwise '借入 k (仍缺 m)' with m > 0 and k + m the need. At or over target: a pending entry becomes '✅ 无变化' and a non-pending entry is kept as it is |
| `Rebalance.Relabel` | filter_students.py:129-131 | a moved row gets the destination label and keeps every other field; the tag is dropped |
| `Rebalance.Relocations` | manager_students.py:169-173 | one '借调变动' record per moved spare, in order, with grade, name, origin, destination and ID |
| `Rebalance.Deletions` | filter_students.py:150-155 | one '彻底删除' record per leftover spare, in pool order, with destination '无' |
| `Rebalance.Rebalanced` | filter_students.py:80-157 | one roster and one summary entry per class of the grade, and a change log at least as long as the deleted rows |
| `Rebalance.GradeRows` | filter_students.py:357 | the rows of one grade, each carrying that grade |
| `RebalanceProofs.GradeRowsMembers` | manager_students.py:311 | a row is selected exactly when it is in the table and carries the grade |
| `RebalanceProofs.GradeRowsAppend` | filter_students.py:357 | selecting from two tables in turn gives the two selections in order, so row order is kept |
| `RebalanceProofs.GradeRowsOneMore` | manager_students.py:311 | one more table row is appended to the selection exactly when it carries the grade |
| `Rebalance.GradesInOrder` | filter_students.py:345-348 | the grades of the sorted class list without repetition, covering every listed grade |
| `Rebalance.GradesAreListed` | filter_students.py:347-348 | every grade the driver visits is the grade of some class in the sorted list |
| `Rebalance.GradesInOrderLast` | manager_students.py:305-308 | one more class appends its grade exactly when that grade has not been seen |
| `RebalanceProofs.GradesInOrderGrow` | filter_students.py:345-348 | reading more of the sorted class list only appends grades, so grades come in first-appearance order |
| `Rebalancer.ProcessGradeData` | filter_students.py:80-157 | the rosters, summaries and change log produced are exactly those of the specification `Rebalanced` |
| `Rebalancer.CollectSpares` | manager_students.py:136-154 | step 1 yields one entry per class, the core of each class and the pool `Pool` describes |
| `Rebalancer.ContractClass` | filter_students.py:90-108 | one class's summary entry, its core, and the pool grown by its donation |
| `Rebalancer.AppendSpares` | manager_students.py:146-149 | the pool grows by the class's spare rows, in order, each tagged with the class |
| `Rebalancer.FillDeficits` | filter_students.py:110-147 | step 2 yields exactly the rosters, settled entries, relocations and leftover pool of `Expand` |
| `Rebalancer.ExpandClass` | filter_students.py:112-145 | a class below target takes as many spares as `Taken` allows from the front of the pool onto its core, logged in order, and its entry is settled by `Settle` ('借入', or '借入 … (仍缺…)' when the pool runs dry); a class at or over target takes nothing and a pending entry becomes '无变化' |
| `Rebalancer.TakeSpares` | manager_students.py:164-178 | the class takes min(need, pool size) spares from the front of the pool, relabelled and logged in order; the deficit left is need minus that |
| `Rebalancer.LogDeletions` | manager_students.py:190-196 | every spare still on the pool is appended to the change log as a deletion, in pool order |
| `Rebalancer.ProcessAllGrades` | filter_students.py:340-361 | the concatenated rosters, summaries and changes are those of rebalancing each grade once, in first-appearance order |
| `RebalanceProofs.ExpandLeavesSuffix` | filter_students.py:122-123 | what is left of the pool is always a suffix of it, shorter by the number of relocations |
| `RebalanceProofs.ExpandAt` | manager_students.py:157-188 | each class takes the next slice of the pool, min(need, what is left) long, and appends it relabelled to its core |
| `RebalanceProofs.MovesFollowPool` | manager_students.py:167-173 | the j-th relocation record describes the j-th spare of the pool |
| `RebalanceProofs.PoolStaysEmpty` | manager_students.py:167 | once the pool is used up, later classes take nothing |
| `RebalanceProofs.ChangeLogFollowsPool` | filter_students.py:122-155 | the change log lists the whole pool in order: relocations first, then deletions of exactly the rows left over |
| `RebalanceProofs.ClassReceivesSlice` | filter_students.py:111-137 | a class's final roster is its core followed by a consecutive pool slice of min(deficit, pool left) rows, with the matching relocation records; earlier classes get earlier slices |
| `RebalanceProofs.SummaryMeaning` | filter_students.py:90-145 | per class: '原' is the count and '实' the target. Over target: '移出 count-target' and the first target rows kept. On target: unchanged. Under target: all rows kept, '借入 n' reaching the target, or '借入 n (仍缺 m)' with count+n+m = target |
| `RebalanceProofs.ShortMeansDrained` | manager_students.py:182-185 | a class left short took every spare that remained |
| `RebalanceProofs.ShortfallEndsBorrowing` | manager_students.py:164-185 | after a class is left short, no later class borrows and nothing is deleted |
| `RebalanceProofs.DeletionMeansTargetsMet` | filter_students.py:149-155 | rows are deleted only when every class of the grade reached its target |
| `RebalanceProofs.CoreAndDonation` | manager_students.py:142-149 | an over-target class's rows are its kept prefix followed by its donated suffix |
| `RebalanceProofs.ContractionLedger` | filter_students.py:89-108 | after contraction, kept rows plus pooled rows are exactly the rows of the contracted classes |
| `RebalanceProofs.ExpansionLedger` | filter_students.py:110-147 | expansion moves rows from the pool to rosters without losing or copying any |
| `RebalanceProofs.Conservation` | manager_students.py:128-197 | every input row ends in exactly one roster or among the deleted rows with its other fields intact, and final sizes plus deletion records equal the input size |
| `RebalanceProofs.ClassesAreLabels` | manager_students.py:132 | a label is a class of the grade exactly when some row carries it |
| `RebalanceProofs.ClassesGrow` | filter_students.py:85 | reading more rows only appends classes, so classes come in first-appearance order |
| `RebalanceProofs.PoolOrigins` | manager_students.py:142-149 | the pool holds only rows of over-target classes, each tagged with the class it carries |
| `RebalanceProofs.NoSurplusNoPool` | filter_students.py:96-107 | with no class over target the pool stays empty |
| `RebalanceProofs.NoSurplusNoChange` | filter_students.py:111-147 | with no class over target nothing moves, the change log is empty and every roster is as it was |
| `RebalanceProofs.TargetsMetIsNoOp` | manager_students.py:141-187 | when every target equals the current count, rosters are unchanged, the log is empty and every status is '✅ 无变化' |
| `RebalanceProofs.FullDrain` | filter_students.py:96-98 | a class with target 0 ends empty and donates all its rows |
| `RebalanceProofs.OutputWithinTargets` | filter_students.py:94-98 | after rebalancing, no class of the output holds more rows than its target |
| `RebalanceProofs.ReplayIsQuiet` | filter_students.py:94-145 | rebalancing the result again with the same targets moves and deletes nothing |
| `RebalanceProofs.DroppedAreDeleted` | manager_students.py:191-196 | the deletion records of a grade are as many as its leftover spares |
| `RebalanceProofs.GradesConserveRows` | manager_students.py:305-314 | across the processed grades, final rosters plus deleted rows are exactly the rows of those grades, and the deletion records count the deleted rows |
| `RebalanceProofs.TableConserved` | filter_students.py:352-361 | when the grade list covers every row, final list plus deletions account for the whole table |

## Left out

- Negative targets are not modelled. Targets are natural numbers. The entry prompts accept
  any integer, and with a negative target `iloc[:target]` drops rows from the end.
- pandas details are not modelled: NaN labels, index handling in `concat`, and the column
  reordering before saving (filter_students.py:379). Rows are records.
- Only ASCII '0'-'9' count as digits. `\d` and `int()` also accept other Unicode digits.
- Labels are strings. The `str()` conversion of non-string labels is not modelled.
- The early return of `generate_grade_map` when the table has no '年级' column
  (filter_students.py:35) is not modelled: the model takes the list of grade labels.
- The sorting of the (grade, class) pairs before the driver is not modelled. The driver takes
  the sorted class list as input.
- Interactive I/O is not modelled: menus, prompts, target entry and its parsing, progress
  output, and sleeps.
- File I/O is not modelled: reading and writing Excel, backups, the retry on a locked output
  file, and workspace set-up.
- The manager's driver (manager_students.py:305-314) discards the summaries. `ProcessAllGrades`
  returns them anyway; the rosters and changes it returns are the same for both copies.
- `strptime` is not modelled. `GetAcademicInfo` takes the parsed date or None for a string
  that does not parse. Its requirement `year >= 1` is what `datetime` itself guarantees.
- Browser automation in auto_nutrition.py, the template-filling scripts
  (manager_inventory.py, inbound_shipment.py) and the menu in main.py are not part of this
  model.
- `Rebalance.Taken`: its own contract only bounds the count. The exact min(deficit, pool left)
  is stated by `RebalanceProofs.ClassReceivesSlice` and `Rebalancer.TakeSpares`.

=== FILE: AcademicTerm.dfy ===
/**
 * The academic-term rule used when filing nutrition data: a date belongs to the academic
 * year that starts in September, and to its autumn semester (September to January) or its
 * spring semester (February to August).
 */
module AcademicTerm {
  import opened Numerals
  import opened Wrappers

  /** A date as parsed from "YYYY-MM-DD"; the day plays no part in the rule. */
  datatype Date = Date(year: int, month: int)

  datatype Semester = Spring | Autumn

  /** The semester's display name: "春季学期" or "秋季学期", told apart by their first character. */
  function SemesterName(s: Semester): (t: string)
    ensures |t| == 4 && t[1..] == "季学期"
    ensures s == Autumn <==> t[0] == '秋'
    ensures s == Spring <==> t[0] == '春'
  {
    match s
    case Spring => "春季学期"
    case Autumn => "秋季学期"
  }

  /** The pair get_academic_info returns: the academic-year label and the semester name. */
  datatype AcademicInfo = AcademicInfo(academicYear: string, semester: string)

  /** The academic-year label "<first>-<first + 1>". */
  function YearSpan(first: nat): string
  {
    Decimal(first) + "-" + Decimal(first + 1)
  }

  /**
   * The calendar year in which the academic year holding `d` began: for a real month, `d`
   * lies between September of that year and August of the next.
   */
  function StartYear(d: Date): (first: int)
    ensures 1 <= d.month <= 12 ==>
              (d.year == first && 9 <= d.month) || (d.year == first + 1 && d.month <= 8)
  {
    if d.month >= 9 then d.year else d.year - 1
  }

  /**
   * get_academic_info. `parsed` is the result of parsing the date string; None stands for a
   * string that does not parse, which yields no academic year and no semester.
   */
  function GetAcademicInfo(parsed: Option<Date>): (r: Option<AcademicInfo>)
    requires parsed.Some? ==> parsed.value.year >= 1
    ensures r.None? <==> parsed.None?
    ensures r.Some? ==> r.value.academicYear == YearSpan(StartYear(parsed.value))
    ensures r.Some? ==>
              var autumn := parsed.value.month >= 9 || parsed.value.month <= 1;
              r.value.semester == SemesterName(if autumn then Autumn else Spring)
  {
    match parsed
    case None => None
    case Some(d) =>
      if 2 <= d.month <= 8 then Some(AcademicInfo(YearSpan(d.year - 1), SemesterName(Spring)))
      else if d.month >= 9 then Some(AcademicInfo(YearSpan(d.year), SemesterName(Autumn)))
      else Some(AcademicInfo(YearSpan(d.year - 1), SemesterName(Autumn)))
  }

  /**
   * The label names two consecutive years: read back, the number before the '-' is `first`
   * and the number after it is `first + 1`.
   */
  lemma YearSpanReadsBack(first: nat)
    ensures |Decimal(first)| < |YearSpan(first)| && YearSpan(first)[|Decimal(first)|] == '-'
    ensures ExtractNumber(YearSpan(first)) == first
    ensures ExtractNumber(YearSpan(first)[|Decimal(first)| + 1..]) == first + 1
  {
    NumbersAroundDash(Decimal(first), Decimal(first + 1));
  }

  lemma NumbersAroundDash(d1: string, d2: string)
    requires |d1| >= 1 && AllDigits(d1) && |d2| >= 1 && AllDigits(d2)
    ensures |d1| < |d1 + "-" + d2| && (d1 + "-" + d2)[|d1|] == '-'
    ensures ExtractNumber(d1 + "-" + d2) == Value(d1)
    ensures ExtractNumber((d1 + "-" + d2)[|d1| + 1..]) == Value(d2)
  {
    var s := d1 + "-" + d2;
    assert s == [] + d1 + ("-" + d2);
    FirstRunIsExtracted([], d1, "-" + d2);
    assert s[|d1| + 1..] == [] + d2 + [];
    FirstRunIsExtracted([], d2, []);
  }

  /**
   * Autumn of year y, the January after it and the spring after it all carry the same
   * academic-year label.
   */
  lemma OneAcademicYear(y: int, autumnMonth: int, springMonth: int)
    requires y >= 1 && 9 <= autumnMonth <= 12 && 2 <= springMonth <= 8
    ensures var autumn := GetAcademicInfo(Some(Date(y, autumnMonth))).value;
            var january := GetAcademicInfo(Some(Date(y + 1, 1))).value;
            var spring := GetAcademicInfo(Some(Date(y + 1, springMonth))).value;
            autumn.academicYear == january.academicYear == spring.academicYear &&
            autumn.semester == january.semester == SemesterName(Autumn) &&
            spring.semester == SemesterName(Spring)
  {
  }

  /** file_name.split('.')[0]: the file name up to its first '.'. */
  function DatePrefix(fileName: string): (p: string)
    ensures |p| <= |fileName| && p == fileName[..|p|]
    ensures '.' !in p
    ensures |p| == |fileName| || fileName[|p|] == '.'
  {
    if fileName == [] || fileName[0] == '.' then []
    else [fileName[0]] + DatePrefix(fileName[1..])
  }

  /** A date file "<date>.<extension>" yields the date back. */
  lemma {:induction false} DatePrefixOfFileName(date: string, extension: string)
    requires '.' !in date
    ensures DatePrefix(date + "." + extension) == date
  {
    var f := date + "." + extension;
    var p := DatePrefix(f);
    assert f[|date|] == '.';
    assert p == f[..|date|] == date;
  }
}

=== FILE: GradeLabels.dfy ===
/**
 * Grade and class labels: the grade map (grade label to school level and display name),
 * the sort key of a class and its display name.
 */
module GradeLabels {
  import opened Numerals

  type Label = string

  /** What the grade map records for one grade label: its level and its display name. */
  datatype GradeInfo = GradeInfo(sort: nat, name: string)

  /** Numbers above this are enrolment years ("2019级"), not levels ("3年级"). */
  const YearFormatFloor: nat := 1900

  /** The sort position given to an unmapped grade or an unnumbered class. */
  const Unranked: nat := 999

  const GradeSuffix := "年级"
  const ClassSuffix := "班"

  /**
   * cn_nums.get(level, str(level)): a Chinese numeral for 1..9, decimal otherwise. Either
   * way the level can be read back from it.
   */
  function Numeral(level: nat): (s: string)
    ensures 1 <= level <= 9 ==> |s| == 1 && !IsDigit(s[0])
    ensures !(1 <= level <= 9) ==> s == Decimal(level) && AllDigits(s) && Value(s) == level
    ensures LevelOfNumeral(s) == level
  {
    if level == 1 then "一"
    else if level == 2 then "二"
    else if level == 3 then "三"
    else if level == 4 then "四"
    else if level == 5 then "五"
    else if level == 6 then "六"
    else if level == 7 then "七"
    else if level == 8 then "八"
    else if level == 9 then "九"
    else
      var d := Decimal(level);
      assert IsDigit(d[0]);
      d
  }

  /** Reads a level back from its numeral. */
  function LevelOfNumeral(s: string): nat
  {
    if s == "一" then 1
    else if s == "二" then 2
    else if s == "三" then 3
    else if s == "四" then 4
    else if s == "五" then 5
    else if s == "六" then 6
    else if s == "七" then 7
    else if s == "八" then 8
    else if s == "九" then 9
    else if AllDigits(s) then Value(s)
    else 0
  }

  /** The display name of a level: its numeral followed by '年级'. */
  function GradeName(level: nat): string
  {
    Numeral(level) + GradeSuffix
  }

  /** A display name ends in '年级', and the level reads back from what comes before it. */
  lemma GradeNameReadsBack(level: nat)
    ensures var s := GradeName(level);
            |s| > |GradeSuffix| && s[|s| - |GradeSuffix|..] == GradeSuffix &&
            LevelOfNumeral(s[..|s| - |GradeSuffix|]) == level
  {
    var s := GradeName(level);
    assert s[..|s| - |GradeSuffix|] == Numeral(level);
  }

  /** Different levels get different display names. */
  lemma GradeNameInjective(a: nat, b: nat)
    requires GradeName(a) == GradeName(b)
    ensures a == b
  {
    GradeNameReadsBack(a);
    GradeNameReadsBack(b);
  }

  /** The largest number found in the grade labels (0 when there is none). */
  function MaxNumber(grades: seq<Label>): (m: nat)
    ensures forall i :: 0 <= i < |grades| ==> ExtractNumber(grades[i]) <= m
    ensures m == 0 || exists i :: 0 <= i < |grades| && ExtractNumber(grades[i]) == m
  {
    if grades == [] then 0
    else
      var m := MaxNumber(grades[..|grades| - 1]);
      var n := ExtractNumber(grades[|grades| - 1]);
      assert forall i :: 0 <= i < |grades| - 1 ==> grades[..|grades| - 1][i] == grades[i];
      if n > m then n else m
  }

  /** The level of a grade numbered `num` when the largest grade number is `maxNum`. */
  function LevelOf(num: nat, maxNum: nat): (level: nat)
    requires num <= maxNum
    ensures num >= 1 ==> level >= 1
    ensures maxNum > YearFormatFloor ==> (level == 1 <==> num == maxNum)
    ensures maxNum <= YearFormatFloor ==> level == num
  {
    if maxNum > YearFormatFloor then maxNum - num + 1 else num
  }

  /**
   * generate_grade_map as a value: every grade label holding a positive number, mapped to
   * its level and display name.
   */
  function GradeMapOf(grades: seq<Label>): (m: map<Label, GradeInfo>)
    ensures forall g :: g in m <==> g in grades && ExtractNumber(g) > 0
    ensures forall g :: g in m ==> m[g].sort >= 1 && m[g].name == GradeName(m[g].sort)
  {
    var maxNum := MaxNumber(grades);
    map g | g in grades && ExtractNumber(g) > 0 ::
      GradeInfo(LevelOf(ExtractNumber(g), maxNum), GradeName(LevelOf(ExtractNumber(g), maxNum)))
  }

  /**
   * The level rule: with enrolment years (largest number above 1900) the newest year is
   * level 1 and older years count up from it; otherwise the number is the level.
   */
  lemma LevelRule(grades: seq<Label>, g: Label)
    requires g in GradeMapOf(grades)
    ensures var maxNum := MaxNumber(grades);
            GradeMapOf(grades)[g].sort ==
              if maxNum > YearFormatFloor then maxNum - ExtractNumber(g) + 1 else ExtractNumber(g)
  {
  }

  /** With enrolment years, an earlier year means a higher level, and the latest year is level 1. */
  lemma YearFormatOrder(grades: seq<Label>, g1: Label, g2: Label)
    requires MaxNumber(grades) > YearFormatFloor
    requires g1 in GradeMapOf(grades) && g2 in GradeMapOf(grades)
    ensures ExtractNumber(g1) < ExtractNumber(g2) <==> GradeMapOf(grades)[g1].sort > GradeMapOf(grades)[g2].sort
    ensures ExtractNumber(g1) == MaxNumber(grades) ==> GradeMapOf(grades)[g1].sort == 1
  {
  }

  /** The entry GradeMapOf gives a numbered grade. */
  lemma GradeMapEntry(grades: seq<Label>, g: Label)
    requires g in grades && ExtractNumber(g) > 0
    ensures g in GradeMapOf(grades)
    ensures var level := LevelOf(ExtractNumber(g), MaxNumber(grades));
            GradeMapOf(grades)[g] == GradeInfo(level, GradeName(level))
  {
  }

  /**
   * generate_grade_map: collect the numbered grades, take the largest number, then record
   * the level and display name of each.
   */
  method GenerateGradeMap(grades: seq<Label>) returns (mapping: map<Label, GradeInfo>)
    ensures mapping == GradeMapOf(grades)
  {
    var gradeData := CollectNumbered(grades);
    if gradeData == [] {
      mapping := map[];
      return;
    }
    var maxNum := LargestNumber(gradeData);
    SameMaximum(grades, gradeData, maxNum);
    var isYearFormat := maxNum > YearFormatFloor;
    var baseYear := if isYearFormat then maxNum else 0;
    mapping := RecordLevels(grades, gradeData, isYearFormat, baseYear);
    RecordedIsWhole(grades, gradeData, mapping);
  }

  /** The largest collected number is the largest number among all the grade labels. */
  lemma SameMaximum(grades: seq<Label>, gradeData: seq<(Label, nat)>, maxNum: nat)
    requires gradeData != []
    requires forall k :: 0 <= k < |gradeData| ==>
      gradeData[k].0 in grades && gradeData[k].1 == ExtractNumber(gradeData[k].0) > 0
    requires forall j :: 0 <= j < |grades| && ExtractNumber(grades[j]) > 0 ==>
      exists k :: 0 <= k < |gradeData| && gradeData[k].0 == grades[j]
    requires forall j :: 0 <= j < |gradeData| ==> gradeData[j].1 <= maxNum
    requires exists j :: 0 <= j < |gradeData| && gradeData[j].1 == maxNum
    ensures maxNum == MaxNumber(grades)
  {
    var j :| 0 <= j < |gradeData| && gradeData[j].1 == maxNum;
    var i' :| 0 <= i' < |grades| && grades[i'] == gradeData[j].0;
    assert maxNum <= MaxNumber(grades);
    var i :| 0 <= i < |grades| && ExtractNumber(grades[i]) == MaxNumber(grades);
    var k :| 0 <= k < |gradeData| && gradeData[k].0 == grades[i];
  }

  /** A map with an agreeing entry for every collected grade is the whole grade map. */
  lemma RecordedIsWhole(grades: seq<Label>, gradeData: seq<(Label, nat)>, mapping: map<Label, GradeInfo>)
    requires forall j :: 0 <= j < |grades| && ExtractNumber(grades[j]) > 0 ==>
      exists k :: 0 <= k < |gradeData| && gradeData[k].0 == grades[j]
    requires forall j :: 0 <= j < |gradeData| ==> gradeData[j].0 in mapping
    requires forall g :: g in mapping ==> g in GradeMapOf(grades) && mapping[g] == GradeMapOf(grades)[g]
    ensures mapping == GradeMapOf(grades)
  {
    forall g | g in GradeMapOf(grades) ensures g in mapping {
      var i :| 0 <= i < |grades| && grades[i] == g;
      var k :| 0 <= k < |gradeData| && gradeData[k].0 == grades[i];
    }
  }

  /** The first loop of generate_grade_map: each grade label with a positive number, with it. */
  method CollectNumbered(grades: seq<Label>) returns (gradeData: seq<(Label, nat)>)
    ensures forall k :: 0 <= k < |gradeData| ==>
      gradeData[k].0 in grades && gradeData[k].1 == ExtractNumber(gradeData[k].0) > 0
    ensures forall j :: 0 <= j < |grades| && ExtractNumber(grades[j]) > 0 ==>
      exists k :: 0 <= k < |gradeData| && gradeData[k].0 == grades[j]
  {
    gradeData := [];
    ghost var from: seq<nat> := [];  // the position in `grades` of each collected grade
    for i := 0 to |grades|
      invariant |from| == |gradeData|
      invariant forall k :: 0 <= k < |gradeData| ==>
        from[k] < i && gradeData[k] == (grades[from[k]], ExtractNumber(grades[from[k]])) && gradeData[k].1 > 0
      invariant forall j :: 0 <= j < i && ExtractNumber(grades[j]) > 0 ==>
        exists k :: 0 <= k < |gradeData| && from[k] == j
    {
      ghost var before := from;
      var num := ExtractNumber(grades[i]);
      if num > 0 {
        gradeData := gradeData + [(grades[i], num)];
        from := from + [i];
      }
      forall j | 0 <= j <= i && ExtractNumber(grades[j]) > 0
        ensures exists k :: 0 <= k < |gradeData| && from[k] == j
      {
        if j < i {
          var k :| 0 <= k < |before| && before[k] == j;
          assert from[k] == j;
        } else {
          assert from[|from| - 1] == j;
        }
      }
    }
    forall j | 0 <= j < |grades| && ExtractNumber(grades[j]) > 0
      ensures exists k :: 0 <= k < |gradeData| && gradeData[k].0 == grades[j]
    {
      var k :| 0 <= k < |gradeData| && from[k] == j;
    }
  }

  /** max(item['num'] for item in grade_data). */
  method LargestNumber(gradeData: seq<(Label, nat)>) returns (maxNum: nat)
    requires gradeData != []
    ensures forall j :: 0 <= j < |gradeData| ==> gradeData[j].1 <= maxNum
    ensures exists j :: 0 <= j < |gradeData| && gradeData[j].1 == maxNum
  {
    maxNum := gradeData[0].1;
    for k := 1 to |gradeData|
      invariant forall j :: 0 <= j < k ==> gradeData[j].1 <= maxNum
      invariant exists j :: 0 <= j < k && gradeData[j].1 == maxNum
    {
      if gradeData[k].1 > maxNum {
        maxNum := gradeData[k].1;
      }
    }
  }

  /** The second loop of generate_grade_map: one map entry per collected grade. */
  method RecordLevels(grades: seq<Label>, gradeData: seq<(Label, nat)>, isYearFormat: bool, baseYear: nat)
    returns (mapping: map<Label, GradeInfo>)
    requires forall k :: 0 <= k < |gradeData| ==>
      gradeData[k].0 in grades && gradeData[k].1 == ExtractNumber(gradeData[k].0) > 0
    requires isYearFormat == (MaxNumber(grades) > YearFormatFloor)
    requires baseYear == if isYearFormat then MaxNumber(grades) else 0
    ensures forall j :: 0 <= j < |gradeData| ==> gradeData[j].0 in mapping
    ensures forall g :: g in mapping ==> g in GradeMapOf(grades) && mapping[g] == GradeMapOf(grades)[g]
  {
    ghost var spec := GradeMapOf(grades);
    mapping := map[];
    for k := 0 to |gradeData|
      invariant forall j :: 0 <= j < k ==> gradeData[j].0 in mapping
      invariant forall g :: g in mapping ==> g in spec && mapping[g] == spec[g]
    {
      var raw, num := gradeData[k].0, gradeData[k].1;
      EntryOfCollected(grades, raw, num, isYearFormat, baseYear);
      var level := if isYearFormat then baseYear - num + 1 else num;
      RecordStep(spec, mapping, gradeData, k, GradeInfo(level, GradeName(level)));
      mapping := mapping[raw := GradeInfo(level, GradeName(level))];
    }
  }

  /** Recording one more entry that agrees with `spec` keeps the second loop's invariants. */
  lemma RecordStep(spec: map<Label, GradeInfo>, mapping: map<Label, GradeInfo>, gradeData: seq<(Label, nat)>,
                   k: nat, info: GradeInfo)
    requires k < |gradeData|
    requires gradeData[k].0 in spec && spec[gradeData[k].0] == info
    requires forall j :: 0 <= j < k ==> gradeData[j].0 in mapping
    requires forall g :: g in mapping ==> g in spec && mapping[g] == spec[g]
    ensures forall j :: 0 <= j < k + 1 ==> gradeData[j].0 in mapping[gradeData[k].0 := info]
    ensures forall g :: g in mapping[gradeData[k].0 := info] ==> g in spec && mapping[gradeData[k].0 := info][g] == spec[g]
  {
  }

  /** The entry the second loop records for one collected grade is the one GradeMapOf gives. */
  lemma EntryOfCollected(grades: seq<Label>, raw: Label, num: nat, isYearFormat: bool, baseYear: nat)
    requires raw in grades && num == ExtractNumber(raw) > 0
    requires isYearFormat == (MaxNumber(grades) > YearFormatFloor)
    requires baseYear == if isYearFormat then MaxNumber(grades) else 0
    ensures isYearFormat ==> num <= baseYear
    ensures var level := if isYearFormat then baseYear - num + 1 else num;
            raw in GradeMapOf(grades) && GradeMapOf(grades)[raw] == GradeInfo(level, GradeName(level))
  {
    var i :| 0 <= i < |grades| && grades[i] == raw;
    GradeMapEntry(grades, raw);
  }

  /**
   * get_class_sort_key: (grade level, class number), with 999 for a grade missing from the
   * map and for a class label without a number.
   */
  function ClassSortKey(rawGrade: Label, rawClass: Label, gradeMap: map<Label, GradeInfo>): (key: (nat, nat))
    ensures key.0 == Unranked <== rawGrade !in gradeMap
    ensures rawGrade in gradeMap ==> key.0 == gradeMap[rawGrade].sort
    ensures key.1 >= 1
    ensures key.1 == Unranked <== ExtractNumber(rawClass) == 0
    ensures ExtractNumber(rawClass) > 0 ==> key.1 == ExtractNumber(rawClass)
  {
    var gSort := if rawGrade in gradeMap then gradeMap[rawGrade].sort else Unranked;
    var cNum := ExtractNumber(rawClass);
    var cSort := if cNum > 0 then cNum else Unranked;
    (gSort, cSort)
  }

  /** Python's order on pairs of numbers. */
  predicate KeyBefore(a: (nat, nat), b: (nat, nat))
  {
    a.0 < b.0 || (a.0 == b.0 && a.1 < b.1)
  }

  /**
   * What the sort key does to classes: within one grade, numbered classes go by number and
   * before the unnumbered ones; every class of a grade below level 999 goes before every
   * class of an unmapped grade.
   */
  lemma ClassOrder(gradeMap: map<Label, GradeInfo>, g: Label, c1: Label, c2: Label, h: Label)
    ensures 0 < ExtractNumber(c1) < ExtractNumber(c2) ==>
      KeyBefore(ClassSortKey(g, c1, gradeMap), ClassSortKey(g, c2, gradeMap))
    ensures 0 < ExtractNumber(c1) < Unranked && ExtractNumber(c2) == 0 ==>
      KeyBefore(ClassSortKey(g, c1, gradeMap), ClassSortKey(g, c2, gradeMap))
    ensures g in gradeMap && gradeMap[g].sort < Unranked && h !in gradeMap ==>
      KeyBefore(ClassSortKey(g, c1, gradeMap), ClassSortKey(h, c2, gradeMap))
  {
  }

  /** The grade part of a display name: the mapped name, or the raw label. */
  function GradePart(rawGrade: Label, gradeMap: map<Label, GradeInfo>): (s: string)
    ensures rawGrade in gradeMap ==> s == gradeMap[rawGrade].name
    ensures rawGrade !in gradeMap ==> s == rawGrade
  {
    if rawGrade in gradeMap then gradeMap[rawGrade].name else rawGrade
  }

  /** The class part of a display name: "<n>班", or the raw label when it has no number. */
  function ClassPart(rawClass: Label): (s: string)
    ensures ExtractNumber(s) == ExtractNumber(rawClass)
    ensures ExtractNumber(rawClass) > 0 ==> s == Decimal(ExtractNumber(rawClass)) + ClassSuffix
    ensures ExtractNumber(rawClass) == 0 ==> s == rawClass
  {
    var n := ExtractNumber(rawClass);
    if n > 0 then
      DecimalIsExtracted(n, ClassSuffix);
      Decimal(n) + ClassSuffix
    else rawClass
  }

  /**
   * format_class_name: the grade part, a space, and the class part ("<n>班", or the raw class
   * label when it has no number), which carries the class label's number.
   */
  function FormatClassName(rawGrade: Label, rawClass: Label, gradeMap: map<Label, GradeInfo>): (s: string)
    ensures |s| > |GradePart(rawGrade, gradeMap)|
    ensures s[..|GradePart(rawGrade, gradeMap)|] == GradePart(rawGrade, gradeMap)
    ensures s[|GradePart(rawGrade, gradeMap)|] == ' '
    ensures s[|GradePart(rawGrade, gradeMap)| + 1..] == ClassPart(rawClass)
    ensures ExtractNumber(s[|GradePart(rawGrade, gradeMap)| + 1..]) == ExtractNumber(rawClass)
  {
    var gName := GradePart(rawGrade, gradeMap);
    var cName := ClassPart(rawClass);
    var s := gName + " " + cName;
    assert s[|gName| + 1..] == cName;
    s
  }
}

=== FILE: Numerals.dfy ===
/**
 * Decimal digits and numbers inside labels.
 *
 * Grade and class labels in the roster are free text ("2019级", "3班", "一年级2班"); the
 * roster tools read the first run of decimal digits in such a label as its number.
 * Only the ASCII digits '0'..'9' are modelled.
 */
module Numerals {

  predicate IsDigit(ch: char) {
    '0' <= ch <= '9'
  }

  predicate AllDigits(s: string) {
    forall i :: 0 <= i < |s| ==> IsDigit(s[i])
  }

  predicate NoDigits(s: string) {
    forall i :: 0 <= i < |s| ==> !IsDigit(s[i])
  }

  function DigitChar(d: nat): (ch: char)
    requires d < 10
    ensures IsDigit(ch) && ch as int - '0' as int == d
  {
    ('0' as int + d) as char
  }

  /** The value of a string of decimal digits, most significant digit first (Python's `int`). */
  function Value(s: string): nat
    requires AllDigits(s)
  {
    if s == [] then 0
    else 10 * Value(s[..|s| - 1]) + (s[|s| - 1] as int - '0' as int)
  }

  /** The decimal rendering of `n` (Python's `str` on a non-negative int): no leading zero, "0" for 0. */
  function Decimal(n: nat): (s: string)
    ensures |s| >= 1 && AllDigits(s)
    ensures Value(s) == n
    ensures s[0] == '0' ==> s == "0" && n == 0
  {
    if n < 10 then [DigitChar(n)]
    else
      var s := Decimal(n / 10) + [DigitChar(n % 10)];
      assert s[..|s| - 1] == Decimal(n / 10);
      s
  }

  /** The length of the run of digits at the front of `s`. */
  function LeadingRun(s: string): (n: nat)
    ensures n <= |s| && AllDigits(s[..n])
    ensures n == |s| || !IsDigit(s[n])
  {
    if s == [] || !IsDigit(s[0]) then 0
    else
      var n := 1 + LeadingRun(s[1..]);
      assert s[..n] == [s[0]] + s[1..][..n - 1];
      n
  }

  /**
   * extract_number: the integer value of the first maximal run of digits in `text`,
   * or 0 when `text` holds no digit (`re.search(r'(\d+)')` followed by `int`).
   */
  function ExtractNumber(text: string): nat
  {
    if text == [] then 0
    else if IsDigit(text[0]) then Value(text[..LeadingRun(text)])
    else ExtractNumber(text[1..])
  }

  /** A text without digits yields 0. */
  lemma {:induction false} NoDigitsYieldZero(text: string)
    requires NoDigits(text)
    ensures ExtractNumber(text) == 0
  {
    if text != [] {
      NoDigitsYieldZero(text[1..]);
    }
  }

  /** `text[i..j]` is the first maximal run of digits in `text`. */
  predicate FirstRun(text: string, i: nat, j: nat)
  {
    i < j <= |text| && NoDigits(text[..i]) && AllDigits(text[i..j]) && (j == |text| || !IsDigit(text[j]))
  }

  /**
   * A text with a digit yields the value of its first maximal run of digits: there are
   * `i < j` with no digit before `i`, digits from `i` to `j` and no digit at `j`.
   */
  lemma {:induction false} ExtractedIsFirstRun(text: string)
    requires !NoDigits(text)
    ensures exists i: nat, j: nat :: FirstRun(text, i, j) && ExtractNumber(text) == Value(text[i..j])
  {
    if IsDigit(text[0]) {
      var j := LeadingRun(text);
      assert text[..0] == [];
      assert text[0..j] == text[..j];
      assert FirstRun(text, 0, j);
    } else {
      var k :| 0 <= k < |text| && IsDigit(text[k]);
      assert text[1..][k - 1] == text[k];
      ExtractedIsFirstRun(text[1..]);
      var i: nat, j: nat :| FirstRun(text[1..], i, j) && ExtractNumber(text[1..]) == Value(text[1..][i..j]);
      RunShifts(text, i, j);
    }
  }

  /** A run found after a leading non-digit is the same run, one position later. */
  lemma RunShifts(text: string, i: nat, j: nat)
    requires text != [] && !IsDigit(text[0]) && FirstRun(text[1..], i, j)
    ensures FirstRun(text, i + 1, j + 1) && text[i + 1..j + 1] == text[1..][i..j]
  {
    assert text[1..][i..j] == text[i + 1..j + 1];
    assert text[..i + 1] == [text[0]] + text[1..][..i];
    assert j < |text[1..]| ==> text[1..][j] == text[j + 1];
  }

  /**
   * Conversely, for any split `pre + run + post` with a digit-free `pre`, a non-empty run of
   * digits and a `post` that does not continue the run, the result is the value of `run`.
   */
  lemma {:induction false} FirstRunIsExtracted(pre: string, run: string, post: string)
    requires NoDigits(pre)
    requires |run| >= 1 && AllDigits(run)
    requires post == [] || !IsDigit(post[0])
    ensures ExtractNumber(pre + run + post) == Value(run)
  {
    var text := pre + run + post;
    if pre == [] {
      assert text == run + post;
      RunLength(run, post);
      assert text[..|run|] == run;
    } else {
      assert text[1..] == pre[1..] + run + post;
      FirstRunIsExtracted(pre[1..], run, post);
    }
  }

  lemma {:induction false} RunLength(run: string, post: string)
    requires AllDigits(run)
    requires post == [] || !IsDigit(post[0])
    ensures LeadingRun(run + post) == |run|
  {
    if run != [] {
      assert (run + post)[1..] == run[1..] + post;
      RunLength(run[1..], post);
    } else {
      assert run + post == post;
    }
  }

  /** A number written in decimal and followed by a non-digit is read back as itself. */
  lemma DecimalIsExtracted(n: nat, suffix: string)
    requires suffix == [] || !IsDigit(suffix[0])
    ensures ExtractNumber(Decimal(n) + suffix) == n
  {
    assert [] + Decimal(n) + suffix == Decimal(n) + suffix;
    FirstRunIsExtracted([], Decimal(n), suffix);
  }
}

=== FILE: Rebalance.dfy ===
/**
 * The roster rebalancer of one grade, as a specification.
 *
 * A grade's rows are grouped into classes (in the order their labels first appear). Each
 * class has a target headcount. Contraction: a class over target keeps its first `target`
 * rows and donates the rest, in order and tagged with their class, to a spare pool shared by
 * the grade. Expansion: classes under target, in class order, take spares from the front of
 * the pool until they reach target or the pool runs dry; a taken row gets the new class
 * label. Deletion: spares nobody took are logged as deleted.
 */
module Rebalance {
  import opened Wrappers
  import opened Numerals

  type Label = string

  /** (grade, class): the key of the target map. */
  type ClassKey = (Label, Label)

  /** Every column of a roster row except the class column ('班级'). */
  datatype Fields = Fields(grade: Label, name: Option<string>, id: Option<string>, others: seq<string>)

  /** A roster row: its class label and all its other columns. */
  datatype Row = Row(cls: Label, fields: Fields)

  /** A row on the spare pool with the class it came from (`_origin_class`). */
  datatype Spare = Spare(row: Row, origin: Label)

  /**
   * The status of a class in the summary: '⚪ 待定' (Pending, only between the two phases),
   * '📉 移出 n 人', '✅ 无变化', '📈 借入 n 人', '⚠️ 借入 n (仍缺m)'.
   */
  datatype Status = Pending | Reduced(moved: nat) | Unchanged | Borrowed(n: nat) | BorrowedShort(n: nat, short: nat)

  /** One summary entry: class, original count ('原'), target ('实') and status ('状态'). */
  datatype Summary = Summary(cls: Label, original: nat, target: nat, status: Status)

  /** '借调变动' (moved to another class) or '彻底删除' (dropped). */
  datatype Op = Relocated | Deleted

  /** One change-log record: '年级', '姓名', '原班级', '操作', '现班级', '身份证号'. */
  datatype Change = Change(grade: Label, name: string, origin: Label, op: string, dest: Label, id: string)

  const UnknownName := "未知"
  const NoClass := "无"

  /**
   * The text of a status. Its first character tells the kinds apart, and its first number is
   * the count of rows moved out or borrowed.
   */
  function StatusText(s: Status): (t: string)
    ensures |t| >= 2
    ensures s.Pending? <==> t[0] == '⚪'
    ensures s.Reduced? <==> t[0] == '📉'
    ensures s.Unchanged? <==> t[0] == '✅'
    ensures s.Borrowed? <==> t[0] == '📈'
    ensures s.BorrowedShort? <==> t[0] == '⚠'
    ensures s.Pending? || s.Unchanged? ==> ExtractNumber(t) == 0
    ensures s.Reduced? ==> ExtractNumber(t) == s.moved
    ensures s.Borrowed? || s.BorrowedShort? ==> ExtractNumber(t) == s.n
  {
    match s
    case Pending => "⚪ 待定"
    case Reduced(n) =>
      FirstRunIsExtracted("📉 移出 ", Decimal(n), " 人");
      "📉 移出 " + Decimal(n) + " 人"
    case Unchanged => "✅ 无变化"
    case Borrowed(n) =>
      FirstRunIsExtracted("📈 借入 ", Decimal(n), " 人");
      "📈 借入 " + Decimal(n) + " 人"
    case BorrowedShort(n, m) =>
      FirstRunIsExtracted("⚠️ 借入 ", Decimal(n), " (仍缺" + Decimal(m) + ")");
      "⚠️ 借入 " + Decimal(n) + (" (仍缺" + Decimal(m) + ")")
  }

  /** The shortfall of a short borrowing is written between '缺' and the closing ')'. */
  lemma ShortfallReadsBack(n: nat, m: nat)
    ensures var t, d := StatusText(BorrowedShort(n, m)), Decimal(m);
            |t| > |d| + 1 && t[|t| - 1 - |d|..] == d + ")" && t[|t| - 2 - |d|] == '缺'
  {
    ShortfallAtEnd("⚠️ 借入 " + Decimal(n), Decimal(m));
  }

  lemma ShortfallAtEnd(head: string, d: string)
    ensures var t := head + (" (仍缺" + d + ")");
            |t| > |d| + 1 && t[|t| - 1 - |d|..] == d + ")" && t[|t| - 2 - |d|] == '缺'
  {
    var t := head + (" (仍缺" + d + ")");
    assert t[|t| - 1 - |d|..] == d + ")";
  }

  /** The text of an operation: '借调变动' or '彻底删除', told apart by the first character. */
  function OpText(op: Op): (t: string)
    ensures |t| == 4
    ensures op == Relocated <==> t[0] == '借'
    ensures op == Deleted <==> t[0] == '彻'
  {
    match op
    case Relocated => "借调变动"
    case Deleted => "彻底删除"
  }

  // ---------------------------------------------------------------------------------------
  // Grouping rows into classes

  predicate Distinct(cs: seq<Label>)
  {
    forall i, j :: 0 <= i < j < |cs| ==> cs[i] != cs[j]
  }

  /** The rows of class `c`, in row order. */
  function Roster(rows: seq<Row>, c: Label): (r: seq<Row>)
    ensures |r| <= |rows|
    ensures forall i :: 0 <= i < |r| ==> r[i].cls == c
  {
    if rows == [] then []
    else (if rows[0].cls == c then [rows[0]] else []) + Roster(rows[1..], c)
  }

  /** The distinct class labels of `rows`, in the order they first appear (`unique()`). */
  function Classes(rows: seq<Row>): (cs: seq<Label>)
    ensures Distinct(cs)
    ensures forall i :: 0 <= i < |rows| ==> rows[i].cls in cs
  {
    if rows == [] then []
    else
      var front := rows[..|rows| - 1];
      var cs := Classes(front);
      var c := rows[|rows| - 1].cls;
      assert forall i :: 0 <= i < |rows| - 1 ==> rows[i] == front[i];
      if c in cs then cs else cs + [c]
  }

  /** targets_map.get((grade, cls), current): a class without a target keeps its count. */
  function TargetOf(targets: map<ClassKey, nat>, grade: Label, c: Label, current: nat): nat
  {
    if (grade, c) in targets then targets[(grade, c)] else current
  }

  // ---------------------------------------------------------------------------------------
  // Step 1: contraction

  /** A class after contraction: its summary entry and the rows it keeps (its core). */
  datatype Plan = Plan(log: Summary, core: seq<Row>)

  function PlanFor(rows: seq<Row>, targets: map<ClassKey, nat>, grade: Label, c: Label): Plan
  {
    var roster := Roster(rows, c);
    var t := TargetOf(targets, grade, c, |roster|);
    if |roster| > t then Plan(Summary(c, |roster|, t, Reduced(|roster| - t)), roster[..t])
    else Plan(Summary(c, |roster|, t, Pending), roster)
  }

  /** Rows tagged with the class they leave. */
  function Tag(rows: seq<Row>, c: Label): (s: seq<Spare>)
    ensures |s| == |rows| && forall i :: 0 <= i < |rows| ==> s[i] == Spare(rows[i], c)
  {
    seq(|rows|, i requires 0 <= i < |rows| => Spare(rows[i], c))
  }

  /** What class `c` puts on the spare pool: its rows past the target, in row order. */
  function Donation(rows: seq<Row>, targets: map<ClassKey, nat>, grade: Label, c: Label): seq<Spare>
  {
    var roster := Roster(rows, c);
    var t := TargetOf(targets, grade, c, |roster|);
    if |roster| > t then Tag(roster[t..], c) else []
  }

  function Plans(rows: seq<Row>, targets: map<ClassKey, nat>, grade: Label, cs: seq<Label>): (ps: seq<Plan>)
    ensures |ps| == |cs| && forall i :: 0 <= i < |cs| ==> ps[i] == PlanFor(rows, targets, grade, cs[i])
  {
    seq(|cs|, i requires 0 <= i < |cs| => PlanFor(rows, targets, grade, cs[i]))
  }

  /** The spare pool after contracting the classes `cs` in order. */
  function Pool(rows: seq<Row>, targets: map<ClassKey, nat>, grade: Label, cs: seq<Label>): seq<Spare>
  {
    if cs == [] then []
    else Pool(rows, targets, grade, cs[..|cs| - 1]) + Donation(rows, targets, grade, cs[|cs| - 1])
  }

  // ---------------------------------------------------------------------------------------
  // Step 2: expansion

  /** How many rows a class still needs after contraction. */
  function Need(p: Plan): int
  {
    p.log.target - |p.core|
  }

  /** How many spares a class takes from a pool: its need, or all there is. */
  function Taken(p: Plan, pool: seq<Spare>): (k: nat)
    ensures k <= |pool|
    ensures Need(p) > 0 ==> k <= Need(p)
  {
    if Need(p) <= 0 then 0
    else if Need(p) <= |pool| then Need(p)
    else |pool|
  }

  /** The summary entry once the class has taken `k` spares. */
  function Settle(log: Summary, need: int, k: nat): (r: Summary)
    requires need > 0 ==> k <= need
    ensures r.(status := log.status) == log
    ensures need > 0 ==> r.status.Borrowed? || r.status.BorrowedShort?
    ensures need > 0 ==> r.status.n == k && (r.status.Borrowed? <==> k == need)
    ensures need > 0 && r.status.BorrowedShort? ==> r.status.short > 0 && k + r.status.short == need
    ensures need <= 0 ==> r.status != Pending
    ensures need <= 0 && log.status == Pending ==> r.status == Unchanged
    ensures need <= 0 && log.status != Pending ==> r == log
  {
    if need > 0 then
      log.(status := if k == need then Borrowed(k) else BorrowedShort(k, need - k))
    else if log.status == Pending then log.(status := Unchanged)
    else log
  }

  /** Spares joining class `c`: the class column is set to `c`, the tag dropped. */
  function Relabel(spares: seq<Spare>, c: Label): (rs: seq<Row>)
    ensures |rs| == |spares|
    ensures forall i :: 0 <= i < |spares| ==> rs[i] == Row(c, spares[i].row.fields)
  {
    seq(|spares|, i requires 0 <= i < |spares| => spares[i].row.(cls := c))
  }

  function NameOf(s: Spare): string
  {
    s.row.fields.name.GetOr(UnknownName)
  }

  function IdOf(s: Spare): string
  {
    s.row.fields.id.GetOr("")
  }

  function Relocation(grade: Label, s: Spare, dest: Label): Change
  {
    Change(grade, NameOf(s), s.origin, OpText(Relocated), dest, IdOf(s))
  }

  function Deletion(grade: Label, s: Spare): Change
  {
    Change(grade, NameOf(s), s.origin, OpText(Deleted), NoClass, IdOf(s))
  }

  function Relocations(spares: seq<Spare>, dest: Label, grade: Label): (cs: seq<Change>)
    ensures |cs| == |spares|
    ensures forall i :: 0 <= i < |spares| ==> cs[i] == Relocation(grade, spares[i], dest)
  {
    seq(|spares|, i requires 0 <= i < |spares| => Relocation(grade, spares[i], dest))
  }

  function Deletions(spares: seq<Spare>, grade: Label): (cs: seq<Change>)
    ensures |cs| == |spares|
    ensures forall i :: 0 <= i < |spares| ==> cs[i] == Deletion(grade, spares[i])
  {
    seq(|spares|, i requires 0 <= i < |spares| => Deletion(grade, spares[i]))
  }

  /** The state after expanding a prefix of the classes: rosters, summaries, moves, pool. */
  datatype Expansion = Expansion(rosters: seq<seq<Row>>, logs: seq<Summary>, moves: seq<Change>, left: seq<Spare>)

  function Expand(plans: seq<Plan>, pool: seq<Spare>, grade: Label): (e: Expansion)
    ensures |e.rosters| == |e.logs| == |plans|
  {
    if plans == [] then Expansion([], [], [], pool)
    else
      var e := Expand(plans[..|plans| - 1], pool, grade);
      var p := plans[|plans| - 1];
      var k := Taken(p, e.left);
      Expansion(e.rosters + [p.core + Relabel(e.left[..k], p.log.cls)],
                e.logs + [Settle(p.log, Need(p), k)],
                e.moves + Relocations(e.left[..k], p.log.cls, grade),
                e.left[k..])
  }

  // ---------------------------------------------------------------------------------------
  // The whole grade

  /**
   * The outcome for one grade: one roster and one summary entry per class, in class order;
   * the change log; and the spares left over (which the change log reports as deleted).
   */
  datatype GradeResult = GradeResult(rosters: seq<seq<Row>>, summaries: seq<Summary>, changes: seq<Change>, deleted: seq<Spare>)

  function Rebalanced(rows: seq<Row>, targets: map<ClassKey, nat>, grade: Label): (r: GradeResult)
    ensures |r.rosters| == |r.summaries| == |Classes(rows)|
    ensures |r.changes| >= |r.deleted|
  {
    var cs := Classes(rows);
    var e := Expand(Plans(rows, targets, grade, cs), Pool(rows, targets, grade, cs), grade);
    GradeResult(e.rosters, e.logs, e.moves + Deletions(e.left, grade), e.left)
  }

  // ---------------------------------------------------------------------------------------
  // All grades

  /** The rows of grade `g` (`df[df['年级'] == grade]`), in row order. */
  function GradeRows(df: seq<Row>, g: Label): (r: seq<Row>)
    ensures |r| <= |df|
    ensures forall i :: 0 <= i < |r| ==> r[i].fields.grade == g
  {
    if df == [] then []
    else (if df[0].fields.grade == g then [df[0]] else []) + GradeRows(df[1..], g)
  }

  /** The grades of the sorted class list, in the order they first appear. */
  function GradesInOrder(sortedClasses: seq<ClassKey>): (gs: seq<Label>)
    ensures Distinct(gs)
    ensures forall i :: 0 <= i < |sortedClasses| ==> sortedClasses[i].0 in gs
  {
    if sortedClasses == [] then []
    else
      var front := sortedClasses[..|sortedClasses| - 1];
      var gs := GradesInOrder(front);
      var g := sortedClasses[|sortedClasses| - 1].0;
      assert forall i :: 0 <= i < |sortedClasses| - 1 ==> sortedClasses[i] == front[i];
      if g in gs then gs else gs + [g]
  }

  /** The last class of the list adds its grade unless an earlier class had it already. */
  lemma GradesInOrderLast(sortedClasses: seq<ClassKey>)
    requires sortedClasses != []
    ensures var n := |sortedClasses| - 1;
            var gs, g := GradesInOrder(sortedClasses[..n]), sortedClasses[n].0;
            GradesInOrder(sortedClasses) == if g in gs then gs else gs + [g]
  {
  }

  /** Conversely, every grade the list yields is the grade of some listed class. */
  lemma {:induction false} GradesAreListed(sortedClasses: seq<ClassKey>, g: Label)
    requires g in GradesInOrder(sortedClasses)
    ensures exists i :: 0 <= i < |sortedClasses| && sortedClasses[i].0 == g
  {
    var n := |sortedClasses| - 1;
    GradesInOrderLast(sortedClasses);
    if g != sortedClasses[n].0 {
      GradesAreListed(sortedClasses[..n], g);
      var i :| 0 <= i < n && sortedClasses[..n][i].0 == g;
      assert sortedClasses[i].0 == g;
    }
  }

  /** What processing every grade produces, concatenated in grade order. */
  datatype Outcome = Outcome(rosters: seq<seq<Row>>, summaries: seq<Summary>, changes: seq<Change>)

  function AllGrades(df: seq<Row>, grades: seq<Label>, targets: map<ClassKey, nat>): Outcome
  {
    if grades == [] then Outcome([], [], [])
    else
      var o := AllGrades(df, grades[..|grades| - 1], targets);
      var g := grades[|grades| - 1];
      var r := Rebalanced(GradeRows(df, g), targets, g);
      Outcome(o.rosters + r.rosters, o.summaries + r.summaries, o.changes + r.changes)
  }
}

=== FILE: RebalanceProofs.dfy ===
/**
 * What the rebalancer guarantees, proved about the specification in module Rebalance (and
 * so, through the postconditions of module Rebalancer, about the program's loops).
 */
module RebalanceProofs {
  import opened Wrappers
  import opened Rebalance

  // ---------------------------------------------------------------------------------------
  // How expansion consumes the pool

  /** How many spares the first `i` classes took from the pool. */
  ghost function Offset(plans: seq<Plan>, pool: seq<Spare>, grade: Label, i: nat): nat
    requires i <= |plans|
  {
    |Expand(plans[..i], pool, grade).moves|
  }

  /** What is left of the pool is always a suffix of it, after one record per spare taken. */
  lemma {:induction false} ExpandLeavesSuffix(plans: seq<Plan>, pool: seq<Spare>, grade: Label)
    ensures var e := Expand(plans, pool, grade);
            |e.moves| <= |pool| && e.left == pool[|e.moves|..]
  {
    if plans != [] {
      ExpandLeavesSuffix(plans[..|plans| - 1], pool, grade);
    }
  }

  /**
   * Expansion hands out the pool front to back: class i receives the slice
   * pool[Offset(i)..Offset(i + 1)], as many as it needs or as are left, relabelled and
   * appended to its core, with one relocation record per row in the same order.
   */
  lemma {:induction false} ExpandAt(plans: seq<Plan>, pool: seq<Spare>, grade: Label, i: nat)
    requires i < |plans|
    ensures Slot(Expand(plans, pool, grade), plans[i], pool, grade, i, Offset(plans, pool, grade, i), Offset(plans, pool, grade, i + 1))
  {
    var n := |plans| - 1;
    if i == n {
      ExpandLast(plans, pool, grade, i);
    } else {
      var front := plans[..n];
      var a, b := Offset(plans, pool, grade, i), Offset(plans, pool, grade, i + 1);
      assert Offset(front, pool, grade, i) == a by {
        assert plans[..i] == front[..i];
      }
      assert Offset(front, pool, grade, i + 1) == b by {
        assert plans[..i + 1] == front[..i + 1];
      }
      assert Slot(Expand(front, pool, grade), plans[i], pool, grade, i, a, b) by {
        assert front[i] == plans[i];
        ExpandAt(front, pool, grade, i);
      }
      ExpandExtends(plans, pool, grade);
      SlotKept(Expand(front, pool, grade), Expand(plans, pool, grade), plans[i], pool, grade, i, a, b);
    }
  }

  /**
   * What the class at position `i` with plan `p` got in expansion `e`: the pool slice from `a`
   * to `b`, as many spares as it takes there, relabelled onto its core and logged in order.
   */
  ghost predicate Slot(e: Expansion, p: Plan, pool: seq<Spare>, grade: Label, i: nat, a: nat, b: nat)
  {
    a <= b <= |e.moves| && b <= |pool| && i < |e.rosters| && i < |e.logs| &&
    b - a == Taken(p, pool[a..]) &&
    e.rosters[i] == p.core + Relabel(pool[a..b], p.log.cls) &&
    e.moves[a..b] == Relocations(pool[a..b], p.log.cls, grade) &&
    e.logs[i] == Settle(p.log, Need(p), b - a)
  }

  /** An expansion that extends another keeps its slots. */
  lemma SlotKept(e: Expansion, e': Expansion, p: Plan, pool: seq<Spare>, grade: Label, i: nat, a: nat, b: nat)
    requires Slot(e, p, pool, grade, i, a, b)
    requires |e.rosters| <= |e'.rosters| && e'.rosters[..|e.rosters|] == e.rosters
    requires |e.logs| <= |e'.logs| && e'.logs[..|e.logs|] == e.logs
    requires |e.moves| <= |e'.moves| && e'.moves[..|e.moves|] == e.moves
    ensures Slot(e', p, pool, grade, i, a, b)
  {
    assert e'.rosters[i] == e.rosters[i];
    assert e'.logs[i] == e.logs[i];
    assert e'.moves[a..b] == e.moves[a..b];
  }

  /** The last class takes its slice from where the earlier ones stopped. */
  lemma {:induction false} ExpandLast(plans: seq<Plan>, pool: seq<Spare>, grade: Label, i: nat)
    requires i == |plans| - 1
    ensures Slot(Expand(plans, pool, grade), plans[i], pool, grade, i, Offset(plans, pool, grade, i), Offset(plans, pool, grade, i + 1))
  {
    var n := i;
    var p := plans[n];
    var e, e' := Expand(plans, pool, grade), Expand(plans[..n], pool, grade);
    var a := |e'.moves|;
    var k := Taken(p, e'.left);
    assert Offset(plans, pool, grade, n) == a;
    assert Offset(plans, pool, grade, n + 1) == a + k by {
      assert plans[..n + 1] == plans;
    }
    assert a <= |pool| && e'.left == pool[a..] by {
      ExpandLeavesSuffix(plans[..n], pool, grade);
    }
    LastSlot(e, e', p, pool, grade, n, a, k);
  }

  /** The slot of a class appended to an expansion `e'` that has handed out the pool up to `a`. */
  lemma LastSlot(e: Expansion, e': Expansion, p: Plan, pool: seq<Spare>, grade: Label, n: nat, a: nat, k: nat)
    requires |e'.rosters| == |e'.logs| == n && |e'.moves| == a <= |pool| && e'.left == pool[a..]
    requires k == Taken(p, e'.left)
    requires e == Expansion(e'.rosters + [p.core + Relabel(e'.left[..k], p.log.cls)],
                            e'.logs + [Settle(p.log, Need(p), k)],
                            e'.moves + Relocations(e'.left[..k], p.log.cls, grade),
                            e'.left[k..])
    ensures Slot(e, p, pool, grade, n, a, a + k)
  {
    var taken := e'.left[..k];
    assert taken == pool[a..a + k];
    assert e.moves[a..a + k] == Relocations(taken, p.log.cls, grade);
  }

  /** Expanding one more class leaves what the earlier classes got untouched. */
  lemma {:induction false} ExpandExtends(plans: seq<Plan>, pool: seq<Spare>, grade: Label)
    requires plans != []
    ensures var e, e' := Expand(plans, pool, grade), Expand(plans[..|plans| - 1], pool, grade);
            e.rosters[..|plans| - 1] == e'.rosters && e.logs[..|plans| - 1] == e'.logs &&
            |e'.moves| <= |e.moves| && e.moves[..|e'.moves|] == e'.moves
  {
  }


  /** Every relocation record describes the pool spare at the same position. */
  lemma {:induction false} MovesFollowPool(plans: seq<Plan>, pool: seq<Spare>, grade: Label)
    ensures var e := Expand(plans, pool, grade);
            forall j :: 0 <= j < |e.moves| ==> j < |pool| && e.moves[j] == Relocation(grade, pool[j], e.moves[j].dest)
  {
    if plans != [] {
      var front := plans[..|plans| - 1];
      MovesFollowPool(front, pool, grade);
      ExpandLeavesSuffix(front, pool, grade);
    }
  }

  /** Once the pool is used up, later classes take nothing from it. */
  lemma {:induction false} PoolStaysEmpty(plans: seq<Plan>, pool: seq<Spare>, grade: Label, i: nat, j: nat)
    requires i <= j <= |plans|
    requires Offset(plans, pool, grade, i) == |pool|
    ensures Offset(plans, pool, grade, j) == |pool|
    decreases j - i
  {
    if i < j {
      ExpandAt(plans, pool, grade, i);
      PoolStaysEmpty(plans, pool, grade, i + 1, j);
    }
  }

  // ---------------------------------------------------------------------------------------
  // One grade

  /** The spare pool of a grade once every class is contracted. */
  ghost function SparePool(rows: seq<Row>, targets: map<ClassKey, nat>, grade: Label): seq<Spare>
  {
    Pool(rows, targets, grade, Classes(rows))
  }

  /** Where the spares of the i-th class start in the pool. */
  ghost function Start(rows: seq<Row>, targets: map<ClassKey, nat>, grade: Label, i: nat): nat
    requires i <= |Classes(rows)|
  {
    Offset(Plans(rows, targets, grade, Classes(rows)), SparePool(rows, targets, grade), grade, i)
  }

  /**
   * The change log lists the spare pool in order: the first spares as relocations, the
   * rest, which are exactly the rows reported as deleted, as deletions.
   */
  lemma {:induction false} ChangeLogFollowsPool(rows: seq<Row>, targets: map<ClassKey, nat>, grade: Label)
    ensures var res, pool := Rebalanced(rows, targets, grade), SparePool(rows, targets, grade);
            var m := |pool| - |res.deleted|;
            |res.changes| == |pool| && 0 <= m && res.deleted == pool[m..] &&
            (forall j :: 0 <= j < m ==> res.changes[j] == Relocation(grade, pool[j], res.changes[j].dest)) &&
            (forall j :: m <= j < |pool| ==> res.changes[j] == Deletion(grade, pool[j]))
  {
    var cs := Classes(rows);
    var plans, pool := Plans(rows, targets, grade, cs), SparePool(rows, targets, grade);
    MovesFollowPool(plans, pool, grade);
    ExpandLeavesSuffix(plans, pool, grade);
  }

  /**
   * The i-th class keeps its core and receives the pool slice from Start(i) to
   * Start(i + 1), relabelled, with the matching relocation records; the slices of
   * consecutive classes are consecutive, so earlier classes are served first.
   */
  lemma {:induction false} ClassReceivesSlice(rows: seq<Row>, targets: map<ClassKey, nat>, grade: Label, i: nat)
    requires i < |Classes(rows)|
    ensures var res, pool, c := Rebalanced(rows, targets, grade), SparePool(rows, targets, grade), Classes(rows)[i];
            var a, b := Start(rows, targets, grade, i), Start(rows, targets, grade, i + 1);
            var p := PlanFor(rows, targets, grade, c);
            a <= b <= |pool| && |res.rosters| == |Classes(rows)| &&
            b - a == (if Need(p) <= 0 then 0 else if Need(p) <= |pool| - a then Need(p) else |pool| - a) &&
            res.rosters[i] == p.core + Relabel(pool[a..b], c) &&
            b <= |res.changes| && res.changes[a..b] == Relocations(pool[a..b], c, grade)
  {
    var cs := Classes(rows);
    var plans, pool := Plans(rows, targets, grade, cs), SparePool(rows, targets, grade);
    var e := Expand(plans, pool, grade);
    var a, b := Start(rows, targets, grade, i), Start(rows, targets, grade, i + 1);
    var p := plans[i];
    assert a <= b <= |e.moves| && b - a == Taken(p, pool[a..]) &&
           e.rosters[i] == p.core + Relabel(pool[a..b], p.log.cls) &&
           e.moves[a..b] == Relocations(pool[a..b], p.log.cls, grade) by {
      ExpandAt(plans, pool, grade, i);
    }
    assert |pool[a..]| == |pool| - a;
    SliceOfFront(e.moves, Deletions(e.left, grade), a, b);
  }

  lemma SliceOfFront<T>(x: seq<T>, y: seq<T>, a: nat, b: nat)
    requires a <= b <= |x|
    ensures (x + y)[a..b] == x[a..b]
  {
  }

  lemma FrontAndLast<T>(s: seq<T>)
    requires s != []
    ensures s[..|s| - 1] + [s[|s| - 1]] == s
  {
  }

  /**
   * What a summary entry means for its class, given the class's rows before (`original`)
   * and after (`roster`): over target, the class kept its first `target` rows; on target,
   * it is unchanged; under target, it kept all its rows and borrowed up to its target,
   * '仍缺' counting what it still lacks.
   */
  ghost predicate Settled(s: Summary, roster: seq<Row>, original: seq<Row>)
  {
    s.original == |original| &&
    match s.status
    case Pending => false
    case Reduced(n) => s.original > s.target && n == s.original - s.target && roster == original[..s.target]
    case Unchanged => s.original == s.target && roster == original
    case Borrowed(n) =>
      s.original < s.target && n == s.target - s.original && |roster| == s.target && roster[..s.original] == original
    case BorrowedShort(n, m) =>
      s.original < s.target && m > 0 && s.original + n + m == s.target && |roster| == s.original + n &&
      roster[..s.original] == original
  }

  /** Each class's summary entry is settled, and every row of its roster carries its label. */
  lemma {:induction false} SummaryMeaning(rows: seq<Row>, targets: map<ClassKey, nat>, grade: Label, i: nat)
    requires i < |Classes(rows)|
    ensures var res, c := Rebalanced(rows, targets, grade), Classes(rows)[i];
            |res.summaries| == |res.rosters| == |Classes(rows)| &&
            res.summaries[i].cls == c &&
            res.summaries[i].target == TargetOf(targets, grade, c, |Roster(rows, c)|) &&
            Settled(res.summaries[i], res.rosters[i], Roster(rows, c)) &&
            forall r :: r in res.rosters[i] ==> r.cls == c
  {
    var cs := Classes(rows);
    var plans, pool := Plans(rows, targets, grade, cs), SparePool(rows, targets, grade);
    var e := Expand(plans, pool, grade);
    var a, b := Offset(plans, pool, grade, i), Offset(plans, pool, grade, i + 1);
    assert Slot(e, plans[i], pool, grade, i, a, b) by {
      ExpandAt(plans, pool, grade, i);
    }
    SlotMeaning(rows, targets, grade, cs[i], e, plans[i], pool, i, a, b);
    assert Rebalanced(rows, targets, grade).summaries == e.logs;
    assert Rebalanced(rows, targets, grade).rosters == e.rosters;
  }

  /** A class whose slot in an expansion is known ends up settled. */
  lemma SlotMeaning(rows: seq<Row>, targets: map<ClassKey, nat>, grade: Label, c: Label,
                    e: Expansion, p: Plan, pool: seq<Spare>, i: nat, a: nat, b: nat)
    requires p == PlanFor(rows, targets, grade, c)
    requires Slot(e, p, pool, grade, i, a, b)
    ensures i < |e.logs| && i < |e.rosters|
    ensures e.logs[i].cls == c && e.logs[i].target == TargetOf(targets, grade, c, |Roster(rows, c)|)
    ensures Settled(e.logs[i], e.rosters[i], Roster(rows, c))
    ensures forall r :: r in e.rosters[i] ==> r.cls == c
  {
    assert pool[a..][..b - a] == pool[a..b];
    SettledByExpansion(rows, targets, grade, c, pool[a..], e.logs[i], e.rosters[i]);
  }

  /** A class that takes what it needs from `left` ends up settled. */
  lemma SettledByExpansion(rows: seq<Row>, targets: map<ClassKey, nat>, grade: Label, c: Label, left: seq<Spare>,
                           s: Summary, roster: seq<Row>)
    requires var p := PlanFor(rows, targets, grade, c);
             var k := Taken(p, left);
             s == Settle(p.log, Need(p), k) && roster == p.core + Relabel(left[..k], c)
    ensures s.cls == c && s.target == TargetOf(targets, grade, c, |Roster(rows, c)|)
    ensures Settled(s, roster, Roster(rows, c))
    ensures forall r :: r in roster ==> r.cls == c
  {
    var p := PlanFor(rows, targets, grade, c);
    assert roster[..|p.core|] == p.core;
  }

  /** A class left short took every spare that was left. */
  lemma {:induction false} ShortMeansDrained(plans: seq<Plan>, pool: seq<Spare>, grade: Label, i: nat)
    requires i < |plans|
    requires !plans[i].log.status.BorrowedShort?
    requires Expand(plans, pool, grade).logs[i].status.BorrowedShort?
    ensures Offset(plans, pool, grade, i + 1) == |pool|
  {
    ExpandAt(plans, pool, grade, i);
    var a := Offset(plans, pool, grade, i);
    var k := Taken(plans[i], pool[a..]);
    assert Need(plans[i]) > 0 && k != Need(plans[i]);
    assert k == |pool[a..]|;
  }

  /** After a class took the last spare, later classes keep their cores and nothing is left. */
  lemma {:induction false} DrainedAfter(plans: seq<Plan>, pool: seq<Spare>, grade: Label, i: nat)
    requires i < |plans|
    requires Offset(plans, pool, grade, i + 1) == |pool|
    ensures var e := Expand(plans, pool, grade);
            e.left == [] && forall j :: i < j < |plans| ==> e.rosters[j] == plans[j].core
  {
    var e := Expand(plans, pool, grade);
    PoolStaysEmpty(plans, pool, grade, i + 1, |plans|);
    ExpandLeavesSuffix(plans, pool, grade);
    assert plans[..|plans|] == plans;
    forall j | i < j < |plans|
      ensures e.rosters[j] == plans[j].core
    {
      PoolStaysEmpty(plans, pool, grade, i + 1, j);
      ExpandAt(plans, pool, grade, j);
    }
  }

  /** A class left short means the pool ran dry: later classes borrow nothing, nothing is deleted. */
  lemma {:induction false} ShortfallEndsBorrowing(rows: seq<Row>, targets: map<ClassKey, nat>, grade: Label, i: nat)
    requires i < |Classes(rows)|
    requires Rebalanced(rows, targets, grade).summaries[i].status.BorrowedShort?
    ensures var res, cs := Rebalanced(rows, targets, grade), Classes(rows);
            res.deleted == [] &&
            forall j :: i < j < |cs| ==> res.rosters[j] == PlanFor(rows, targets, grade, cs[j]).core
  {
    var cs := Classes(rows);
    var plans, pool := Plans(rows, targets, grade, cs), SparePool(rows, targets, grade);
    ShortMeansDrained(plans, pool, grade, i);
    DrainedAfter(plans, pool, grade, i);
  }

  /** Every class reaches its target unless the pool ran dry, in which case nothing is deleted. */
  lemma {:induction false} FilledOrNothingDeleted(rows: seq<Row>, targets: map<ClassKey, nat>, grade: Label, i: nat)
    requires i < |Classes(rows)|
    ensures var res := Rebalanced(rows, targets, grade);
            |res.rosters| == |res.summaries| == |Classes(rows)| &&
            (|res.rosters[i]| == res.summaries[i].target || res.deleted == [])
  {
    SummaryMeaning(rows, targets, grade, i);
    if Rebalanced(rows, targets, grade).summaries[i].status.BorrowedShort? {
      ShortfallEndsBorrowing(rows, targets, grade, i);
    }
  }

  /** Rows are deleted only once every class of the grade has reached its target. */
  lemma {:induction false} DeletionMeansTargetsMet(rows: seq<Row>, targets: map<ClassKey, nat>, grade: Label)
    requires Rebalanced(rows, targets, grade).deleted != []
    ensures var res := Rebalanced(rows, targets, grade);
            forall i :: 0 <= i < |Classes(rows)| ==> |res.rosters[i]| == res.summaries[i].target
  {
    forall i | 0 <= i < |Classes(rows)|
      ensures var res := Rebalanced(rows, targets, grade);
              |res.rosters| == |res.summaries| == |Classes(rows)| &&
              (|res.rosters[i]| == res.summaries[i].target || res.deleted == [])
    {
      FilledOrNothingDeleted(rows, targets, grade, i);
    }
  }

  // ---------------------------------------------------------------------------------------
  // Conservation: no row is lost or duplicated

  /** The rows of several classes one after another (`pd.concat`). */
  function Flatten(rosters: seq<seq<Row>>): (rs: seq<Row>)
  {
    if rosters == [] then [] else Flatten(rosters[..|rosters| - 1]) + rosters[|rosters| - 1]
  }

  /** The row contents of a sequence of rows, counted with multiplicity; the class label is not part of them. */
  function FieldBag(rows: seq<Row>): (m: multiset<Fields>)
    ensures |m| == |rows|
  {
    multiset(Contents(rows))
  }

  /** The columns of each row other than the class, in row order. */
  function Contents(rows: seq<Row>): (fs: seq<Fields>)
    ensures |fs| == |rows| && forall i :: 0 <= i < |rows| ==> fs[i] == rows[i].fields
  {
    seq(|rows|, i requires 0 <= i < |rows| => rows[i].fields)
  }

  /** The rows on the spare pool, without their tags. */
  function Unpack(spares: seq<Spare>): (rs: seq<Row>)
    ensures |rs| == |spares| && forall i :: 0 <= i < |spares| ==> rs[i] == spares[i].row
  {
    seq(|spares|, i requires 0 <= i < |spares| => spares[i].row)
  }

  lemma UnpackAppend(a: seq<Spare>, b: seq<Spare>)
    ensures Unpack(a + b) == Unpack(a) + Unpack(b)
  {
    assert Unpack(a + b) == Unpack(a) + Unpack(b);
  }

  function Cores(plans: seq<Plan>): (cs: seq<seq<Row>>)
    ensures |cs| == |plans| && forall i :: 0 <= i < |plans| ==> cs[i] == plans[i].core
  {
    seq(|plans|, i requires 0 <= i < |plans| => plans[i].core)
  }

  /** The rows whose class is one of `cs`, in row order. */
  function Among(rows: seq<Row>, cs: seq<Label>): (r: seq<Row>)
    ensures |r| <= |rows|
  {
    if rows == [] then []
    else (if rows[0].cls in cs then [rows[0]] else []) + Among(rows[1..], cs)
  }

  lemma {:induction false} FieldBagAppend(a: seq<Row>, b: seq<Row>)
    ensures FieldBag(a + b) == FieldBag(a) + FieldBag(b)
  {
    assert Contents(a + b) == Contents(a) + Contents(b);
  }

  /** Rows that agree on everything but the class label have the same contents. */
  lemma {:induction false} FieldBagIgnoresClass(a: seq<Row>, b: seq<Row>)
    requires |a| == |b| && forall i :: 0 <= i < |a| ==> a[i].fields == b[i].fields
    ensures FieldBag(a) == FieldBag(b)
  {
    assert Contents(a) == Contents(b);
  }

  lemma {:induction false} AmongExtend(rows: seq<Row>, cs: seq<Label>, c: Label)
    requires c !in cs
    ensures FieldBag(Among(rows, cs + [c])) == FieldBag(Among(rows, cs)) + FieldBag(Roster(rows, c))
  {
    if rows != [] {
      var r, tail := rows[0], rows[1..];
      var all, some, one := Among(tail, cs + [c]), Among(tail, cs), Roster(tail, c);
      assert FieldBag(all) == FieldBag(some) + FieldBag(one) by {
        AmongExtend(tail, cs, c);
      }
      var x := if r.cls in cs + [c] then [r] else [];
      var y := if r.cls in cs then [r] else [];
      var z := if r.cls == c then [r] else [];
      assert FieldBag(x) == FieldBag(y) + FieldBag(z) by {
        assert r.cls in cs + [c] <==> r.cls in cs || r.cls == c;
      }
      assert FieldBag(Among(rows, cs + [c])) == FieldBag(x) + FieldBag(all) by {
        FieldBagAppend(x, all);
      }
      assert FieldBag(Among(rows, cs)) == FieldBag(y) + FieldBag(some) by {
        FieldBagAppend(y, some);
      }
      assert FieldBag(Roster(rows, c)) == FieldBag(z) + FieldBag(one) by {
        FieldBagAppend(z, one);
      }
      Regroup(FieldBag(y), FieldBag(z), FieldBag(some), FieldBag(one));
    }
  }

  lemma Regroup(a: multiset<Fields>, b: multiset<Fields>, c: multiset<Fields>, d: multiset<Fields>)
    ensures (a + b) + (c + d) == (a + c) + (b + d)
  {
  }

  lemma {:induction false} AmongEverything(rows: seq<Row>, cs: seq<Label>)
    requires forall i :: 0 <= i < |rows| ==> rows[i].cls in cs
    ensures Among(rows, cs) == rows
  {
    if rows != [] {
      AmongEverything(rows[1..], cs);
    }
  }

  lemma {:induction false} AmongNone(rows: seq<Row>)
    ensures Among(rows, []) == []
  {
    if rows != [] {
      AmongNone(rows[1..]);
    }
  }

  /** A class's rows are what it keeps followed by what it donates. */
  lemma CoreAndDonation(rows: seq<Row>, targets: map<ClassKey, nat>, grade: Label, c: Label)
    ensures PlanFor(rows, targets, grade, c).core + Unpack(Donation(rows, targets, grade, c)) == Roster(rows, c)
  {
    var roster := Roster(rows, c);
    var t := TargetOf(targets, grade, c, |roster|);
    if |roster| > t {
      UnpackTag(roster[t..], c);
      SplitAt(roster, t);
    } else {
      assert Unpack([]) == [];
    }
  }

  lemma UnpackTag(rs: seq<Row>, c: Label)
    ensures Unpack(Tag(rs, c)) == rs
  {
    assert Unpack(Tag(rs, c)) == rs;
  }

  lemma SplitAt<T>(s: seq<T>, t: nat)
    requires t <= |s|
    ensures s[..t] + s[t..] == s
  {
  }

  /** Contraction splits every class into the rows it keeps and the rows it puts on the pool. */
  lemma {:induction false} ContractionLedger(rows: seq<Row>, targets: map<ClassKey, nat>, grade: Label, cs: seq<Label>)
    requires Distinct(cs)
    ensures FieldBag(Flatten(Cores(Plans(rows, targets, grade, cs)))) + FieldBag(Unpack(Pool(rows, targets, grade, cs)))
            == FieldBag(Among(rows, cs))
  {
    if cs == [] {
      NothingContracted(rows, targets, grade);
    } else {
      var n := |cs| - 1;
      var front, c := cs[..n], cs[n];
      DistinctFront(cs);
      ContractionStep(rows, targets, grade, cs);
      ContractionLedger(rows, targets, grade, front);
      AmongExtend(rows, front, c);
      FrontAndLast(cs);
      var kept, spare := FieldBag(Flatten(Cores(Plans(rows, targets, grade, front)))), FieldBag(Unpack(Pool(rows, targets, grade, front)));
      var earlier, mine := FieldBag(Among(rows, front)), FieldBag(Roster(rows, c));
      assert kept + spare == earlier;
      assert FieldBag(Among(rows, cs)) == earlier + mine;
    }
  }

  lemma DistinctFront(cs: seq<Label>)
    requires Distinct(cs) && cs != []
    ensures Distinct(cs[..|cs| - 1]) && cs[|cs| - 1] !in cs[..|cs| - 1]
  {
  }

  lemma NothingContracted(rows: seq<Row>, targets: map<ClassKey, nat>, grade: Label)
    ensures FieldBag(Flatten(Cores(Plans(rows, targets, grade, [])))) + FieldBag(Unpack(Pool(rows, targets, grade, [])))
            == FieldBag(Among(rows, []))
  {
    AmongNone(rows);
    assert Cores(Plans(rows, targets, grade, [])) == [];
    assert Unpack(Pool(rows, targets, grade, [])) == [];
  }

  /** One more class: its core joins the kept rows and its donation the pool. */
  lemma {:induction false} ContractionStep(rows: seq<Row>, targets: map<ClassKey, nat>, grade: Label, cs: seq<Label>)
    requires cs != []
    ensures var n := |cs| - 1;
            FieldBag(Flatten(Cores(Plans(rows, targets, grade, cs)))) + FieldBag(Unpack(Pool(rows, targets, grade, cs)))
            == FieldBag(Flatten(Cores(Plans(rows, targets, grade, cs[..n])))) + FieldBag(Unpack(Pool(rows, targets, grade, cs[..n])))
               + FieldBag(Roster(rows, cs[n]))
  {
    var n := |cs| - 1;
    var front, c := cs[..n], cs[n];
    var cores := Cores(Plans(rows, targets, grade, cs));
    var core := PlanFor(rows, targets, grade, c).core;
    var donated := Donation(rows, targets, grade, c);
    var pool := Pool(rows, targets, grade, front);
    var before, spare := FieldBag(Flatten(Cores(Plans(rows, targets, grade, front)))), FieldBag(Unpack(pool));
    var kept, given := FieldBag(core), FieldBag(Unpack(donated));
    assert FieldBag(Flatten(cores)) == before + kept by {
      assert cores[..n] == Cores(Plans(rows, targets, grade, front));
      assert Flatten(cores) == Flatten(cores[..n]) + core;
      FieldBagAppend(Flatten(cores[..n]), core);
    }
    assert FieldBag(Unpack(Pool(rows, targets, grade, cs))) == spare + given by {
      assert Pool(rows, targets, grade, cs) == pool + donated;
      UnpackAppend(pool, donated);
      FieldBagAppend(Unpack(pool), Unpack(donated));
    }
    assert kept + given == FieldBag(Roster(rows, c)) by {
      CoreAndDonation(rows, targets, grade, c);
      FieldBagAppend(core, Unpack(donated));
    }
    Regroup(before, kept, spare, given);
  }

  /** Expansion moves rows from the pool into the rosters without losing or copying any. */
  lemma {:induction false} ExpansionLedger(plans: seq<Plan>, pool: seq<Spare>, grade: Label)
    ensures var e := Expand(plans, pool, grade);
            FieldBag(Flatten(e.rosters)) + FieldBag(Unpack(e.left)) == FieldBag(Flatten(Cores(plans))) + FieldBag(Unpack(pool))
  {
    if plans == [] {
      NothingExpanded(pool, grade);
    } else {
      var n := |plans| - 1;
      var e, e' := Expand(plans, pool, grade), Expand(plans[..n], pool, grade);
      var before, after := FieldBag(Flatten(e'.rosters)) + FieldBag(Unpack(e'.left)), FieldBag(Flatten(e.rosters)) + FieldBag(Unpack(e.left));
      var cores, core, spares := FieldBag(Flatten(Cores(plans[..n]))), FieldBag(plans[n].core), FieldBag(Unpack(pool));
      assert before == cores + spares by {
        ExpansionLedger(plans[..n], pool, grade);
      }
      assert after == before + core && FieldBag(Flatten(Cores(plans))) == cores + core by {
        ExpansionStep(plans, pool, grade);
      }
    }
  }

  lemma NothingExpanded(pool: seq<Spare>, grade: Label)
    ensures var e := Expand([], pool, grade);
            FieldBag(Flatten(e.rosters)) + FieldBag(Unpack(e.left)) == FieldBag(Flatten(Cores([]))) + FieldBag(Unpack(pool))
  {
    assert Cores([]) == [];
  }

  /** One more class: its core joins the rosters, and what it takes moves from the pool to its roster. */
  lemma {:induction false} ExpansionStep(plans: seq<Plan>, pool: seq<Spare>, grade: Label)
    requires plans != []
    ensures var n := |plans| - 1;
            var e, e' := Expand(plans, pool, grade), Expand(plans[..n], pool, grade);
            FieldBag(Flatten(e.rosters)) + FieldBag(Unpack(e.left)) == FieldBag(Flatten(e'.rosters)) + FieldBag(Unpack(e'.left)) + FieldBag(plans[n].core) &&
            FieldBag(Flatten(Cores(plans))) == FieldBag(Flatten(Cores(plans[..n]))) + FieldBag(plans[n].core)
  {
    var n := |plans| - 1;
    var e' := Expand(plans[..n], pool, grade);
    var p := plans[n];
    var k := Taken(p, e'.left);
    assert Expand(plans, pool, grade).rosters == e'.rosters + [p.core + Relabel(e'.left[..k], p.log.cls)];
    assert Expand(plans, pool, grade).left == e'.left[k..];
    StepLedger(e'.rosters, e'.left, p.core, k, p.log.cls);
    CoresStep(plans);
  }

  /** Cores of one more class. */
  lemma CoresStep(plans: seq<Plan>)
    requires plans != []
    ensures var n := |plans| - 1;
            FieldBag(Flatten(Cores(plans))) == FieldBag(Flatten(Cores(plans[..n]))) + FieldBag(plans[n].core)
  {
    var n := |plans| - 1;
    assert Cores(plans)[..n] == Cores(plans[..n]);
    assert Flatten(Cores(plans)) == Flatten(Cores(plans[..n])) + plans[n].core;
    FieldBagAppend(Flatten(Cores(plans[..n])), plans[n].core);
  }

  /** A class with core `core` takes the first `k` spares of `left` into its roster. */
  lemma StepLedger(rosters: seq<seq<Row>>, left: seq<Spare>, core: seq<Row>, k: nat, c: Label)
    requires k <= |left|
    ensures FieldBag(Flatten(rosters + [core + Relabel(left[..k], c)])) + FieldBag(Unpack(left[k..])) ==
            FieldBag(Flatten(rosters)) + FieldBag(Unpack(left)) + FieldBag(core)
  {
    var taken, rest := left[..k], left[k..];
    var moved := Relabel(taken, c);
    var after := rosters + [core + moved];
    var before, given := FieldBag(Flatten(rosters)), FieldBag(Unpack(taken));
    assert FieldBag(Flatten(after)) == before + (FieldBag(core) + FieldBag(moved)) by {
      assert after[..|rosters|] == rosters;
      assert Flatten(after) == Flatten(rosters) + (core + moved);
      FieldBagAppend(core, moved);
      FieldBagAppend(Flatten(rosters), core + moved);
    }
    assert FieldBag(moved) == given by {
      FieldBagIgnoresClass(moved, Unpack(taken));
    }
    assert FieldBag(Unpack(left)) == given + FieldBag(Unpack(rest)) by {
      assert left == taken + rest;
      UnpackAppend(taken, rest);
      FieldBagAppend(Unpack(taken), Unpack(rest));
    }
    Ledger(FieldBag(Flatten(after)), before, FieldBag(Unpack(rest)), FieldBag(Unpack(left)), FieldBag(core), FieldBag(moved), given, FieldBag(Unpack(rest)));
  }

  /** The bookkeeping of one expansion step, on the counts alone. */
  lemma Ledger(after: multiset<Fields>, before: multiset<Fields>, left: multiset<Fields>, left': multiset<Fields>,
               core: multiset<Fields>, moved: multiset<Fields>, given: multiset<Fields>, rest: multiset<Fields>)
    requires after == before + (core + moved) && moved == given
    requires left' == given + rest && left == rest
    ensures after + left == before + left' + core
  {
  }

  /**
   * Every row of the grade ends up either in exactly one class roster or among the deleted
   * rows, with all its columns other than the class unchanged.
   */
  lemma {:induction false} Conservation(rows: seq<Row>, targets: map<ClassKey, nat>, grade: Label)
    ensures var res := Rebalanced(rows, targets, grade);
            FieldBag(Flatten(res.rosters)) + FieldBag(Unpack(res.deleted)) == FieldBag(rows) &&
            |Flatten(res.rosters)| + Dropped(res.changes) == |rows|
  {
    DroppedAreDeleted(rows, targets, grade);
    var cs := Classes(rows);
    var plans, pool := Plans(rows, targets, grade, cs), SparePool(rows, targets, grade);
    ContractionLedger(rows, targets, grade, cs);
    ExpansionLedger(plans, pool, grade);
    AmongEverything(rows, cs);
  }

  // ---------------------------------------------------------------------------------------
  // Rosters and class labels

  lemma {:induction false} RosterAppend(a: seq<Row>, b: seq<Row>, c: Label)
    ensures Roster(a + b, c) == Roster(a, c) + Roster(b, c)
  {
    if a == [] {
      assert a + b == b;
    } else {
      assert (a + b)[0] == a[0];
      assert (a + b)[1..] == a[1..] + b;
      RosterAppend(a[1..], b, c);
    }
  }

  /** Picking a class out of rows that all carry one label gives all of them or none. */
  lemma {:induction false} RosterOfOneClass(rs: seq<Row>, d: Label, c: Label)
    requires forall r :: r in rs ==> r.cls == d
    ensures Roster(rs, c) == if c == d then rs else []
  {
    if rs != [] {
      assert rs[0] in rs;
      assert forall r :: r in rs[1..] ==> r in rs;
      RosterOfOneClass(rs[1..], d, c);
    }
  }

  /** A label is one of the grade's classes exactly when some row carries it. */
  lemma {:induction false} ClassesAreLabels(rows: seq<Row>, c: Label)
    ensures c in Classes(rows) <==> Roster(rows, c) != []
  {
    if rows != [] {
      var n := |rows| - 1;
      var front, last := rows[..n], rows[n];
      assert c in Classes(front) <==> Roster(front, c) != [] by {
        ClassesAreLabels(front, c);
      }
      assert Roster(rows, c) == Roster(front, c) + Roster([last], c) by {
        FrontAndLast(rows);
        RosterAppend(front, [last], c);
      }
      assert Roster([last], c) != [] <==> last.cls == c;
      assert c in Classes(rows) <==> c in Classes(front) || last.cls == c;
    }
  }

  /**
   * Reading more rows only ever appends labels to the class list: the classes come in the
   * order their labels first appear.
   */
  lemma {:induction false} ClassesGrow(rows: seq<Row>, k: nat)
    requires k <= |rows|
    ensures var early := Classes(rows[..k]);
            |early| <= |Classes(rows)| && Classes(rows)[..|early|] == early
    decreases |rows| - k
  {
    if k < |rows| {
      var n := |rows| - 1;
      var early, mid := Classes(rows[..k]), Classes(rows[..n]);
      assert |early| <= |mid| && mid[..|early|] == early by {
        assert rows[..n][..k] == rows[..k];
        ClassesGrow(rows[..n], k);
      }
      var c := rows[n].cls;
      assert Classes(rows) == if c in mid then mid else mid + [c];
      if c !in mid {
        SliceOfFront(mid, [c], 0, |early|);
      }
    } else {
      assert rows[..k] == rows;
    }
  }

  /** Where every roster holds only its own class, picking a class out of the lot gives its roster back. */
  lemma {:induction false} RosterOfFlatten(rosters: seq<seq<Row>>, cs: seq<Label>, c: Label)
    requires |rosters| == |cs| && Distinct(cs)
    requires forall i, r :: 0 <= i < |cs| && r in rosters[i] ==> r.cls == cs[i]
    ensures c !in cs ==> Roster(Flatten(rosters), c) == []
    ensures forall i :: 0 <= i < |cs| && cs[i] == c ==> Roster(Flatten(rosters), c) == rosters[i]
  {
    if cs != [] {
      var n := |cs| - 1;
      DistinctFront(cs);
      RosterOfFlatten(rosters[..n], cs[..n], c);
      RosterAppend(Flatten(rosters[..n]), rosters[n], c);
      RosterOfOneClass(rosters[n], cs[n], c);
      assert forall i :: 0 <= i < n ==> cs[..n][i] == cs[i];
    }
  }

  // ---------------------------------------------------------------------------------------
  // Who donates, and when nothing moves

  /** `s` is a row of a class among `cs` that is over its target, tagged with that class. */
  ghost predicate Donates(rows: seq<Row>, targets: map<ClassKey, nat>, grade: Label, cs: seq<Label>, s: Spare)
  {
    s.row.cls == s.origin && s.origin in cs &&
    |Roster(rows, s.origin)| > TargetOf(targets, grade, s.origin, |Roster(rows, s.origin)|)
  }

  /** The pool holds only rows of over-target classes, each tagged with the class it carries. */
  lemma {:induction false} PoolOrigins(rows: seq<Row>, targets: map<ClassKey, nat>, grade: Label, cs: seq<Label>)
    ensures forall s :: s in Pool(rows, targets, grade, cs) ==> Donates(rows, targets, grade, cs, s)
  {
    if cs != [] {
      var n := |cs| - 1;
      PoolOrigins(rows, targets, grade, cs[..n]);
      var front, donated := Pool(rows, targets, grade, cs[..n]), Donation(rows, targets, grade, cs[n]);
      var pool := Pool(rows, targets, grade, cs);
      assert pool == front + donated;
      forall s | s in pool
        ensures Donates(rows, targets, grade, cs, s)
      {
        if s in front {
          assert Donates(rows, targets, grade, cs[..n], s);
        } else {
          assert s in donated;
        }
      }
    }
  }

  /** With no class over its target the pool stays empty. */
  lemma {:induction false} NoSurplusNoPool(rows: seq<Row>, targets: map<ClassKey, nat>, grade: Label, cs: seq<Label>)
    requires forall i :: 0 <= i < |cs| ==> |Roster(rows, cs[i])| <= TargetOf(targets, grade, cs[i], |Roster(rows, cs[i])|)
    ensures Pool(rows, targets, grade, cs) == []
  {
    if cs != [] {
      NoSurplusNoPool(rows, targets, grade, cs[..|cs| - 1]);
    }
  }

  /** No class over its target: no row moves, no change is logged, every roster is as it was. */
  lemma {:induction false} NoSurplusNoChange(rows: seq<Row>, targets: map<ClassKey, nat>, grade: Label)
    requires forall c :: c in Classes(rows) ==> |Roster(rows, c)| <= TargetOf(targets, grade, c, |Roster(rows, c)|)
    ensures var res, cs := Rebalanced(rows, targets, grade), Classes(rows);
            res.changes == [] && res.deleted == [] && |res.rosters| == |cs| &&
            forall i :: 0 <= i < |cs| ==> res.rosters[i] == Roster(rows, cs[i])
  {
    var cs := Classes(rows);
    var plans, pool := Plans(rows, targets, grade, cs), SparePool(rows, targets, grade);
    NoSurplusNoPool(rows, targets, grade, cs);
    ExpandLeavesSuffix(plans, pool, grade);
    forall i | 0 <= i < |cs|
      ensures Rebalanced(rows, targets, grade).rosters[i] == Roster(rows, cs[i])
    {
      ExpandAt(plans, pool, grade, i);
      assert Relabel([], cs[i]) == [];
    }
  }

  /** Targets equal to the current counts change nothing, and every class reports '✅ 无变化'. */
  lemma {:induction false} TargetsMetIsNoOp(rows: seq<Row>, targets: map<ClassKey, nat>, grade: Label)
    requires forall c :: c in Classes(rows) ==> TargetOf(targets, grade, c, |Roster(rows, c)|) == |Roster(rows, c)|
    ensures var res, cs := Rebalanced(rows, targets, grade), Classes(rows);
            res.changes == [] && |res.rosters| == |res.summaries| == |cs| &&
            forall i :: 0 <= i < |cs| ==> res.rosters[i] == Roster(rows, cs[i]) && res.summaries[i].status == Unchanged
  {
    NoSurplusNoChange(rows, targets, grade);
    forall i | 0 <= i < |Classes(rows)|
      ensures Rebalanced(rows, targets, grade).summaries[i].status == Unchanged
    {
      SummaryMeaning(rows, targets, grade, i);
    }
  }

  /** A class with target 0 is emptied: all its rows go to the pool. */
  lemma {:induction false} FullDrain(rows: seq<Row>, targets: map<ClassKey, nat>, grade: Label, i: nat)
    requires i < |Classes(rows)|
    requires TargetOf(targets, grade, Classes(rows)[i], |Roster(rows, Classes(rows)[i])|) == 0
    ensures var res, c := Rebalanced(rows, targets, grade), Classes(rows)[i];
            |res.rosters| == |Classes(rows)| && res.rosters[i] == [] &&
            Donation(rows, targets, grade, c) == Tag(Roster(rows, c), c)
  {
    var c := Classes(rows)[i];
    ClassesAreLabels(rows, c);
    SummaryMeaning(rows, targets, grade, i);
    assert Roster(rows, c)[0..] == Roster(rows, c);
  }

  /**
   * Rebalancing is idempotent: feeding the rebalanced rows back in with the same targets
   * moves and deletes nothing and leaves every class as it is.
   */
  lemma {:induction false} ReplayIsQuiet(rows: seq<Row>, targets: map<ClassKey, nat>, grade: Label)
    ensures var out := Flatten(Rebalanced(rows, targets, grade).rosters);
            var again := Rebalanced(out, targets, grade);
            again.changes == [] && again.deleted == [] &&
            forall i :: 0 <= i < |Classes(out)| ==> again.rosters[i] == Roster(out, Classes(out)[i])
  {
    var out := Flatten(Rebalanced(rows, targets, grade).rosters);
    OutputWithinTargets(rows, targets, grade, out);
    NoSurplusNoChange(out, targets, grade);
  }

  /** After rebalancing, no class of the output holds more rows than its target. */
  lemma OutputWithinTargets(rows: seq<Row>, targets: map<ClassKey, nat>, grade: Label, out: seq<Row>)
    requires out == Flatten(Rebalanced(rows, targets, grade).rosters)
    ensures forall c :: |Roster(out, c)| <= TargetOf(targets, grade, c, |Roster(out, c)|)
  {
    var res, cs := Rebalanced(rows, targets, grade), Classes(rows);
    forall i | 0 <= i < |cs|
      ensures |res.rosters| == |cs| && (grade, cs[i]) in targets ==> |res.rosters[i]| <= targets[(grade, cs[i])]
      ensures forall r :: r in res.rosters[i] ==> r.cls == cs[i]
    {
      SummaryMeaning(rows, targets, grade, i);
    }
    FlattenWithinTargets(res.rosters, cs, targets, grade);
  }

  /** Rosters of distinct classes, each within its target, stay within target once flattened. */
  lemma FlattenWithinTargets(rosters: seq<seq<Row>>, cs: seq<Label>, targets: map<ClassKey, nat>, grade: Label)
    requires |rosters| == |cs| && Distinct(cs)
    requires forall i, r :: 0 <= i < |cs| && r in rosters[i] ==> r.cls == cs[i]
    requires forall i :: 0 <= i < |cs| && (grade, cs[i]) in targets ==> |rosters[i]| <= targets[(grade, cs[i])]
    ensures forall c :: |Roster(Flatten(rosters), c)| <= TargetOf(targets, grade, c, |Roster(Flatten(rosters), c)|)
  {
    forall c
      ensures |Roster(Flatten(rosters), c)| <= TargetOf(targets, grade, c, |Roster(Flatten(rosters), c)|)
    {
      RosterOfFlatten(rosters, cs, c);
      if c in cs {
        var i :| 0 <= i < |cs| && cs[i] == c;
      }
    }
  }

  // ---------------------------------------------------------------------------------------
  // All grades

  /** How many change records report a deletion ('彻底删除'). */
  function Dropped(changes: seq<Change>): (n: nat)
    ensures n <= |changes|
  {
    if changes == [] then 0 else (if changes[0].op == OpText(Deleted) then 1 else 0) + Dropped(changes[1..])
  }

  lemma {:induction false} DroppedAppend(a: seq<Change>, b: seq<Change>)
    ensures Dropped(a + b) == Dropped(a) + Dropped(b)
  {
    if a == [] {
      assert a + b == b;
    } else {
      assert (a + b)[0] == a[0];
      assert (a + b)[1..] == a[1..] + b;
      DroppedAppend(a[1..], b);
    }
  }

  lemma {:induction false} DroppedCounts(changes: seq<Change>, op: Op)
    requires forall j :: 0 <= j < |changes| ==> changes[j].op == OpText(op)
    ensures Dropped(changes) == if op == Deleted then |changes| else 0
  {
    if changes != [] {
      DroppedCounts(changes[1..], op);
    }
  }

  /** A grade's change log reports exactly its deleted rows as deletions. */
  lemma {:induction false} DroppedAreDeleted(rows: seq<Row>, targets: map<ClassKey, nat>, grade: Label)
    ensures var res := Rebalanced(rows, targets, grade);
            Dropped(res.changes) == |res.deleted|
  {
    var cs := Classes(rows);
    var e := Expand(Plans(rows, targets, grade, cs), Pool(rows, targets, grade, cs), grade);
    assert Dropped(e.moves) == 0 by {
      NothingDroppedInExpansion(Plans(rows, targets, grade, cs), Pool(rows, targets, grade, cs), grade);
    }
    assert Dropped(Deletions(e.left, grade)) == |e.left| by {
      DroppedCounts(Deletions(e.left, grade), Deleted);
    }
    DroppedAppend(e.moves, Deletions(e.left, grade));
  }

  /** Expansion only ever logs relocations. */
  lemma {:induction false} NothingDroppedInExpansion(plans: seq<Plan>, pool: seq<Spare>, grade: Label)
    ensures Dropped(Expand(plans, pool, grade).moves) == 0
  {
    if plans != [] {
      var front := plans[..|plans| - 1];
      var e := Expand(front, pool, grade);
      var p := plans[|plans| - 1];
      var added := Relocations(e.left[..Taken(p, e.left)], p.log.cls, grade);
      assert Expand(plans, pool, grade).moves == e.moves + added;
      NothingDroppedInExpansion(front, pool, grade);
      DroppedCounts(added, Relocated);
      DroppedAppend(e.moves, added);
    }
  }

  /** Selecting a grade from two tables one after the other gives the two selections, in order. */
  lemma {:induction false} GradeRowsAppend(a: seq<Row>, b: seq<Row>, g: Label)
    ensures GradeRows(a + b, g) == GradeRows(a, g) + GradeRows(b, g)
  {
    if a == [] {
      assert a + b == b;
    } else {
      assert (a + b)[0] == a[0];
      assert (a + b)[1..] == a[1..] + b;
      GradeRowsAppend(a[1..], b, g);
    }
  }

  /** One more row of the table is selected, at the end, exactly when it has the grade. */
  lemma GradeRowsOneMore(df: seq<Row>, r: Row, g: Label)
    ensures GradeRows(df + [r], g) == GradeRows(df, g) + (if r.fields.grade == g then [r] else [])
  {
    GradeRowsAppend(df, [r], g);
    assert [r][1..] == [];
  }

  /** A row is selected exactly when it is in the table and has the grade. */
  lemma {:induction false} GradeRowsMembers(df: seq<Row>, g: Label, r: Row)
    ensures r in GradeRows(df, g) <==> r in df && r.fields.grade == g
  {
    if df != [] {
      GradeRowsMembers(df[1..], g, r);
      assert df == [df[0]] + df[1..];
    }
  }

  /**
   * Reading more of the sorted class list only ever appends grades: the grades come in the
   * order they first appear in it.
   */
  lemma {:induction false} GradesInOrderGrow(sortedClasses: seq<ClassKey>, k: nat)
    requires k <= |sortedClasses|
    ensures var early := GradesInOrder(sortedClasses[..k]);
            |early| <= |GradesInOrder(sortedClasses)| && GradesInOrder(sortedClasses)[..|early|] == early
    decreases |sortedClasses| - k
  {
    if k < |sortedClasses| {
      var n := |sortedClasses| - 1;
      var early, mid := GradesInOrder(sortedClasses[..k]), GradesInOrder(sortedClasses[..n]);
      assert |early| <= |mid| && mid[..|early|] == early by {
        assert sortedClasses[..n][..k] == sortedClasses[..k];
        GradesInOrderGrow(sortedClasses[..n], k);
      }
      var g, full := sortedClasses[n].0, GradesInOrder(sortedClasses);
      assert full == if g in mid then mid else mid + [g] by {
        GradesInOrderLast(sortedClasses);
      }
      KeepsPrefix(early, mid, g, full);
    } else {
      assert sortedClasses[..k] == sortedClasses;
    }
  }

  /** Adding a label to a list only when it is new keeps every prefix of the list. */
  lemma KeepsPrefix(early: seq<Label>, mid: seq<Label>, g: Label, full: seq<Label>)
    requires |early| <= |mid| && mid[..|early|] == early
    requires full == if g in mid then mid else mid + [g]
    ensures |early| <= |full| && full[..|early|] == early
  {
    if g !in mid {
      SliceOfFront(mid, [g], 0, |early|);
    }
  }

  /** The rows deleted in each of `grades`, in grade order. */
  ghost function AllDeleted(df: seq<Row>, grades: seq<Label>, targets: map<ClassKey, nat>): seq<Spare>
  {
    if grades == [] then []
    else
      var g := grades[|grades| - 1];
      AllDeleted(df, grades[..|grades| - 1], targets) + Rebalanced(GradeRows(df, g), targets, g).deleted
  }

  /** The rows whose grade is one of `gs`, in row order. */
  function InGrades(df: seq<Row>, gs: seq<Label>): (r: seq<Row>)
    ensures |r| <= |df|
  {
    if df == [] then []
    else (if df[0].fields.grade in gs then [df[0]] else []) + InGrades(df[1..], gs)
  }

  lemma {:induction false} InGradesExtend(df: seq<Row>, gs: seq<Label>, g: Label)
    requires g !in gs
    ensures FieldBag(InGrades(df, gs + [g])) == FieldBag(InGrades(df, gs)) + FieldBag(GradeRows(df, g))
  {
    if df != [] {
      var x := if df[0].fields.grade in gs + [g] then [df[0]] else [];
      var y := if df[0].fields.grade in gs then [df[0]] else [];
      var z := if df[0].fields.grade == g then [df[0]] else [];
      var all, some, one := InGrades(df[1..], gs + [g]), InGrades(df[1..], gs), GradeRows(df[1..], g);
      assert FieldBag(all) == FieldBag(some) + FieldBag(one) by {
        InGradesExtend(df[1..], gs, g);
      }
      assert FieldBag(x) == FieldBag(y) + FieldBag(z) by {
        assert df[0].fields.grade in gs + [g] <==> df[0].fields.grade in gs || df[0].fields.grade == g;
      }
      assert FieldBag(InGrades(df, gs + [g])) == FieldBag(x) + FieldBag(all) by {
        FieldBagAppend(x, all);
      }
      assert FieldBag(InGrades(df, gs)) == FieldBag(y) + FieldBag(some) by {
        FieldBagAppend(y, some);
      }
      assert FieldBag(GradeRows(df, g)) == FieldBag(z) + FieldBag(one) by {
        FieldBagAppend(z, one);
      }
      Regroup(FieldBag(y), FieldBag(z), FieldBag(some), FieldBag(one));
    }
  }

  lemma {:induction false} InGradesNone(df: seq<Row>)
    ensures InGrades(df, []) == []
  {
    if df != [] {
      InGradesNone(df[1..]);
    }
  }

  lemma {:induction false} InGradesEverything(df: seq<Row>, gs: seq<Label>)
    requires forall i :: 0 <= i < |df| ==> df[i].fields.grade in gs
    ensures InGrades(df, gs) == df
  {
    if df != [] {
      InGradesEverything(df[1..], gs);
    }
  }

  lemma {:induction false} FlattenAppend(a: seq<seq<Row>>, b: seq<seq<Row>>)
    ensures Flatten(a + b) == Flatten(a) + Flatten(b)
  {
    if b == [] {
      assert a + b == a;
    } else {
      var n := |b| - 1;
      FlattenAppend(a, b[..n]);
      assert (a + b)[..|a + b| - 1] == a + b[..n];
    }
  }

  /**
   * Across grades no row is lost or duplicated: every row of the processed grades ends up
   * in the final list or among the deleted rows, and the change log counts the deleted
   * ones.
   */
  lemma {:induction false} GradesConserveRows(df: seq<Row>, grades: seq<Label>, targets: map<ClassKey, nat>)
    requires Distinct(grades)
    ensures var o := AllGrades(df, grades, targets);
            FieldBag(Flatten(o.rosters)) + FieldBag(Unpack(AllDeleted(df, grades, targets))) == FieldBag(InGrades(df, grades)) &&
            Dropped(o.changes) == |AllDeleted(df, grades, targets)|
  {
    if grades == [] {
      NoGrades(df, targets);
    } else {
      var n := |grades| - 1;
      var front, g := grades[..n], grades[n];
      DistinctFront(grades);
      var o, r := AllGrades(df, front, targets), Rebalanced(GradeRows(df, g), targets, g);
      var gone := AllDeleted(df, front, targets);
      var earlier, mine := FieldBag(InGrades(df, front)), FieldBag(GradeRows(df, g));
      assert AllGrades(df, grades, targets) == Outcome(o.rosters + r.rosters, o.summaries + r.summaries, o.changes + r.changes);
      assert AllDeleted(df, grades, targets) == gone + r.deleted;
      assert FieldBag(Flatten(o.rosters)) + FieldBag(Unpack(gone)) == earlier && Dropped(o.changes) == |gone| by {
        GradesConserveRows(df, front, targets);
      }
      assert FieldBag(Flatten(r.rosters)) + FieldBag(Unpack(r.deleted)) == mine && Dropped(r.changes) == |r.deleted| by {
        Conservation(GradeRows(df, g), targets, g);
        DroppedAreDeleted(GradeRows(df, g), targets, g);
      }
      JoinGrade(o, gone, r, earlier, mine);
      assert FieldBag(InGrades(df, grades)) == earlier + mine by {
        InGradesExtend(df, front, g);
        FrontAndLast(grades);
      }
    }
  }

  lemma NoGrades(df: seq<Row>, targets: map<ClassKey, nat>)
    ensures var o := AllGrades(df, [], targets);
            FieldBag(Flatten(o.rosters)) + FieldBag(Unpack(AllDeleted(df, [], targets))) == FieldBag(InGrades(df, [])) &&
            Dropped(o.changes) == |AllDeleted(df, [], targets)|
  {
    InGradesNone(df);
    assert Unpack([]) == [];
  }

  /** Appending one grade's outcome adds its rows to both sides of the ledger. */
  lemma {:induction false} JoinGrade(o: Outcome, gone: seq<Spare>, r: GradeResult, earlier: multiset<Fields>, mine: multiset<Fields>)
    requires FieldBag(Flatten(o.rosters)) + FieldBag(Unpack(gone)) == earlier && Dropped(o.changes) == |gone|
    requires FieldBag(Flatten(r.rosters)) + FieldBag(Unpack(r.deleted)) == mine && Dropped(r.changes) == |r.deleted|
    ensures FieldBag(Flatten(o.rosters + r.rosters)) + FieldBag(Unpack(gone + r.deleted)) == earlier + mine
    ensures Dropped(o.changes + r.changes) == |gone + r.deleted|
  {
    var kept, lost := FieldBag(Flatten(o.rosters)), FieldBag(Unpack(gone));
    var keptHere, lostHere := FieldBag(Flatten(r.rosters)), FieldBag(Unpack(r.deleted));
    assert FieldBag(Flatten(o.rosters + r.rosters)) == kept + keptHere by {
      FlattenAppend(o.rosters, r.rosters);
      FieldBagAppend(Flatten(o.rosters), Flatten(r.rosters));
    }
    assert FieldBag(Unpack(gone + r.deleted)) == lost + lostHere by {
      UnpackAppend(gone, r.deleted);
      FieldBagAppend(Unpack(gone), Unpack(r.deleted));
    }
    Regroup(kept, keptHere, lost, lostHere);
    DroppedAppend(o.changes, r.changes);
  }

  /**
   * When the grade list covers every row (as it does when it is drawn from the table's own
   * (grade, class) pairs), the final list and the deletions together account for the whole
   * table.
   */
  lemma {:induction false} TableConserved(df: seq<Row>, sortedClasses: seq<ClassKey>, targets: map<ClassKey, nat>)
    requires forall i :: 0 <= i < |df| ==> exists j :: 0 <= j < |sortedClasses| && sortedClasses[j].0 == df[i].fields.grade
    ensures var grades := GradesInOrder(sortedClasses);
            var o := AllGrades(df, grades, targets);
            FieldBag(Flatten(o.rosters)) + FieldBag(Unpack(AllDeleted(df, grades, targets))) == FieldBag(df) &&
            |Flatten(o.rosters)| + Dropped(o.changes) == |df|
  {
    var grades := GradesInOrder(sortedClasses);
    GradesConserveRows(df, grades, targets);
    InGradesEverything(df, grades);
  }
}

=== FILE: Rebalancer.dfy ===
/**
 * The rebalancer as the program runs it: one pass per grade over local lists and a
 * dictionary (the spare pool is popped from the front, summary entries are updated in
 * place), and the loop that runs it for every grade. Each is proved to compute what the
 * specification in module Rebalance describes. The three steps of the pass are written as
 * separate methods so that each is proved on its own.
 */
module Rebalancer {
  import opened Rebalance

  /** process_grade_data for the rows of one grade. */
  method ProcessGradeData(gradeRows: seq<Row>, targets: map<ClassKey, nat>, grade: Label)
    returns (processed: seq<seq<Row>>, summaryLogs: seq<Summary>, changeRecords: seq<Change>)
    ensures var spec := Rebalanced(gradeRows, targets, grade);
            processed == spec.rosters && summaryLogs == spec.summaries && changeRecords == spec.changes
  {
    var classes := Classes(gradeRows);
    var sparePool, classCoreData;
    summaryLogs, sparePool, classCoreData := CollectSpares(gradeRows, targets, grade, classes);
    ghost var plans := Plans(gradeRows, targets, grade, classes);
    processed, summaryLogs, changeRecords, sparePool :=
      FillDeficits(summaryLogs, classCoreData, sparePool, grade, plans);
    changeRecords := LogDeletions(changeRecords, sparePool, grade);
  }

  /**
   * Step 1: each class over target keeps its first `target` rows and appends the rest,
   * tagged with its label, to the spare pool; a summary entry is made for every class.
   */
  method CollectSpares(gradeRows: seq<Row>, targets: map<ClassKey, nat>, grade: Label, classes: seq<Label>)
    returns (summaryLogs: seq<Summary>, sparePool: seq<Spare>, classCoreData: map<Label, seq<Row>>)
    ensures |summaryLogs| == |classes|
    ensures forall j :: 0 <= j < |classes| ==> summaryLogs[j] == PlanFor(gradeRows, targets, grade, classes[j]).log
    ensures sparePool == Pool(gradeRows, targets, grade, classes)
    ensures forall j :: 0 <= j < |classes| ==> classes[j] in classCoreData
    ensures forall c :: c in classCoreData ==> classCoreData[c] == PlanFor(gradeRows, targets, grade, c).core
  {
    sparePool := [];
    classCoreData := map[];
    summaryLogs := [];
    for i := 0 to |classes|
      invariant |summaryLogs| == i
      invariant forall j :: 0 <= j < i ==> summaryLogs[j] == PlanFor(gradeRows, targets, grade, classes[j]).log
      invariant sparePool == Pool(gradeRows, targets, grade, classes[..i])
      invariant forall j :: 0 <= j < i ==> classes[j] in classCoreData
      invariant forall c :: c in classCoreData ==> classCoreData[c] == PlanFor(gradeRows, targets, grade, c).core
    {
      var cls := classes[i];
      PoolOneMore(gradeRows, targets, grade, classes, i);
      var log, core;
      log, core, sparePool := ContractClass(gradeRows, targets, grade, cls, sparePool);
      CoresOneMore(gradeRows, targets, grade, classes, i, classCoreData, core);
      LogsOneMore(gradeRows, targets, grade, classes, i, summaryLogs, log);
      classCoreData := classCoreData[cls := core];
      summaryLogs := summaryLogs + [log];
    }
    assert classes[..|classes|] == classes;
  }

  lemma LogsOneMore(rows: seq<Row>, targets: map<ClassKey, nat>, grade: Label, cs: seq<Label>, i: nat,
                    logs: seq<Summary>, log: Summary)
    requires i < |cs| && |logs| == i
    requires forall j :: 0 <= j < i ==> logs[j] == PlanFor(rows, targets, grade, cs[j]).log
    requires log == PlanFor(rows, targets, grade, cs[i]).log
    ensures forall j :: 0 <= j < i + 1 ==> (logs + [log])[j] == PlanFor(rows, targets, grade, cs[j]).log
  {
  }

  lemma CoresOneMore(rows: seq<Row>, targets: map<ClassKey, nat>, grade: Label, cs: seq<Label>, i: nat,
                     cores: map<Label, seq<Row>>, core: seq<Row>)
    requires i < |cs|
    requires forall j :: 0 <= j < i ==> cs[j] in cores
    requires forall c :: c in cores ==> cores[c] == PlanFor(rows, targets, grade, c).core
    requires core == PlanFor(rows, targets, grade, cs[i]).core
    ensures forall j :: 0 <= j < i + 1 ==> cs[j] in cores[cs[i] := core]
    ensures forall c :: c in cores[cs[i] := core] ==> cores[cs[i] := core][c] == PlanFor(rows, targets, grade, c).core
  {
  }

  lemma PoolOneMore(rows: seq<Row>, targets: map<ClassKey, nat>, grade: Label, cs: seq<Label>, i: nat)
    requires i < |cs|
    ensures Pool(rows, targets, grade, cs[..i + 1]) == Pool(rows, targets, grade, cs[..i]) + Donation(rows, targets, grade, cs[i])
  {
    assert cs[..i + 1][..i] == cs[..i];
  }

  /** The body of step 1 for class `cls`: its summary entry, its core, and the grown pool. */
  method ContractClass(gradeRows: seq<Row>, targets: map<ClassKey, nat>, grade: Label, cls: Label, pool: seq<Spare>)
    returns (log: Summary, core: seq<Row>, sparePool: seq<Spare>)
    ensures log == PlanFor(gradeRows, targets, grade, cls).log
    ensures core == PlanFor(gradeRows, targets, grade, cls).core
    ensures sparePool == pool + Donation(gradeRows, targets, grade, cls)
  {
    var clsRows := Roster(gradeRows, cls);
    var currentCount := |clsRows|;
    var target := TargetOf(targets, grade, cls, currentCount);
    if currentCount > target {
      core := clsRows[..target];
      sparePool := AppendSpares(pool, clsRows[target..], cls);
      log := Summary(cls, currentCount, target, Reduced(currentCount - target));
    } else {
      core := clsRows;
      sparePool := pool;
      log := Summary(cls, currentCount, target, Pending);
    }
  }

  /** The inner loop of step 1: every spare row goes on the pool tagged with its class. */
  method AppendSpares(pool: seq<Spare>, spares: seq<Row>, cls: Label) returns (sparePool: seq<Spare>)
    ensures sparePool == pool + Tag(spares, cls)
  {
    sparePool := pool;
    for j := 0 to |spares|
      invariant sparePool == pool + Tag(spares[..j], cls)
    {
      assert spares[..j + 1] == spares[..j] + [spares[j]];
      sparePool := sparePool + [Spare(spares[j], cls)];
    }
    assert spares[..|spares|] == spares;
  }

  /**
   * Step 2: in class order, a class below target pops spares off the front of the pool until
   * it reaches target or the pool is empty; its summary entry is settled.
   */
  method FillDeficits(logs: seq<Summary>, classCoreData: map<Label, seq<Row>>, pool: seq<Spare>, grade: Label,
                      ghost plans: seq<Plan>)
    returns (processed: seq<seq<Row>>, summaryLogs: seq<Summary>, changeRecords: seq<Change>, sparePool: seq<Spare>)
    requires |logs| == |plans|
    requires forall j :: 0 <= j < |plans| ==> logs[j] == plans[j].log
    requires forall j :: 0 <= j < |plans| ==> plans[j].log.cls in classCoreData
    requires forall j :: 0 <= j < |plans| ==> classCoreData[plans[j].log.cls] == plans[j].core
    ensures var e := Expand(plans, pool, grade);
            processed == e.rosters && summaryLogs == e.logs && changeRecords == e.moves && sparePool == e.left
  {
    processed := [];
    changeRecords := [];
    sparePool := pool;
    summaryLogs := logs;
    for i := 0 to |summaryLogs|
      invariant |summaryLogs| == |plans|
      invariant var e := Expand(plans[..i], pool, grade);
                processed == e.rosters && changeRecords == e.moves && sparePool == e.left &&
                (forall j :: 0 <= j < i ==> summaryLogs[j] == e.logs[j]) &&
                (forall j :: i <= j < |plans| ==> summaryLogs[j] == plans[j].log)
    {
      ExpandOneMore(plans, pool, grade, i);
      var log := summaryLogs[i];
      var finalCls, settled;
      finalCls, settled, changeRecords, sparePool :=
        ExpandClass(log, classCoreData[log.cls], changeRecords, sparePool, grade, plans[i]);
      summaryLogs := summaryLogs[i := settled];
      processed := processed + [finalCls];
    }
    assert plans[..|plans|] == plans;
  }

  /**
   * Step 2 for one class: below target, it borrows from the pool front and its entry becomes
   * '借入' (or '借入 … (仍缺…)' when the pool runs dry); otherwise a pending entry becomes '无变化'.
   */
  method ExpandClass(log: Summary, currentData: seq<Row>, records: seq<Change>, pool: seq<Spare>, grade: Label,
                     ghost p: Plan)
    returns (finalCls: seq<Row>, settled: Summary, changeRecords: seq<Change>, sparePool: seq<Spare>)
    requires log == p.log && currentData == p.core
    ensures var k := Taken(p, pool);
            finalCls == p.core + Relabel(pool[..k], log.cls) && settled == Settle(log, Need(p), k) &&
            changeRecords == records + Relocations(pool[..k], log.cls, grade) && sparePool == pool[k..]
  {
    var cls := log.cls;
    var needed: int := log.target - |currentData|;
    finalCls := currentData;
    settled := log;
    if needed > 0 {
      var borrowedRows, actualBorrowed;
      borrowedRows, changeRecords, sparePool, needed, actualBorrowed := TakeSpares(records, pool, needed, cls, grade);
      finalCls := finalCls + borrowedRows;
      if needed == 0 {
        settled := log.(status := Borrowed(actualBorrowed));
      } else {
        settled := log.(status := BorrowedShort(actualBorrowed, needed));
      }
    } else {
      changeRecords, sparePool := records, pool;
      assert pool[..0] == [] && pool[0..] == pool;
      if log.status == Pending {
        settled := log.(status := Unchanged);
      }
    }
  }

  /** Expanding the classes up to `i` inclusive adds class `i`'s share to the expansion before it. */
  lemma ExpandOneMore(plans: seq<Plan>, pool: seq<Spare>, grade: Label, i: nat)
    requires i < |plans|
    ensures var e, p := Expand(plans[..i], pool, grade), plans[i];
            var k := Taken(p, e.left);
            Expand(plans[..i + 1], pool, grade) ==
              Expansion(e.rosters + [p.core + Relabel(e.left[..k], p.log.cls)],
                        e.logs + [Settle(p.log, Need(p), k)],
                        e.moves + Relocations(e.left[..k], p.log.cls, grade),
                        e.left[k..])
  {
    assert plans[..i + 1][..i] == plans[..i];
  }

  /**
   * The inner loop of step 2: `spare_pool.pop(0)` while the class still needs rows, logging
   * each move and relabelling the moved row.
   */
  method TakeSpares(records: seq<Change>, pool: seq<Spare>, need: int, cls: Label, grade: Label)
    returns (borrowedRows: seq<Row>, changeRecords: seq<Change>, sparePool: seq<Spare>, needed: int, actualBorrowed: nat)
    requires need > 0
    ensures actualBorrowed == if need <= |pool| then need else |pool|
    ensures needed == need - actualBorrowed
    ensures borrowedRows == Relabel(pool[..actualBorrowed], cls)
    ensures changeRecords == records + Relocations(pool[..actualBorrowed], cls, grade)
    ensures sparePool == pool[actualBorrowed..]
  {
    borrowedRows, changeRecords, sparePool, needed, actualBorrowed := [], records, pool, need, 0;
    while needed > 0 && sparePool != []
      invariant actualBorrowed <= |pool|
      invariant sparePool == pool[actualBorrowed..]
      invariant borrowedRows == Relabel(pool[..actualBorrowed], cls)
      invariant changeRecords == records + Relocations(pool[..actualBorrowed], cls, grade)
      invariant needed == need - actualBorrowed >= 0
    {
      var spare := sparePool[0];
      sparePool := sparePool[1..];
      changeRecords := changeRecords + [Relocation(grade, spare, cls)];
      borrowedRows := borrowedRows + [spare.row.(cls := cls)];
      needed := needed - 1;
      actualBorrowed := actualBorrowed + 1;
    }
  }

  /** Step 3: every spare still on the pool is logged as deleted, in pool order. */
  method LogDeletions(records: seq<Change>, sparePool: seq<Spare>, grade: Label) returns (changeRecords: seq<Change>)
    ensures changeRecords == records + Deletions(sparePool, grade)
  {
    changeRecords := records;
    for i := 0 to |sparePool|
      invariant changeRecords == records + Deletions(sparePool[..i], grade)
    {
      assert sparePool[..i + 1] == sparePool[..i] + [sparePool[i]];
      changeRecords := changeRecords + [Deletion(grade, sparePool[i])];
    }
    assert sparePool[..|sparePool|] == sparePool;
  }

  /**
   * The processing loop of the entry point: the grades, in the order they first appear in
   * the sorted class list, are each rebalanced once and the results concatenated.
   */
  method ProcessAllGrades(df: seq<Row>, sortedClasses: seq<ClassKey>, targets: map<ClassKey, nat>)
    returns (finalDfs: seq<seq<Row>>, allLogs: seq<Summary>, allChanges: seq<Change>)
    ensures var o := AllGrades(df, GradesInOrder(sortedClasses), targets);
            finalDfs == o.rosters && allLogs == o.summaries && allChanges == o.changes
  {
    var sortedGrades: seq<Label> := [];
    var seen: set<Label> := {};
    for i := 0 to |sortedClasses|
      invariant sortedGrades == GradesInOrder(sortedClasses[..i])
      invariant forall g :: g in seen <==> g in sortedGrades
    {
      assert sortedClasses[..i + 1][..i] == sortedClasses[..i];
      GradesInOrderLast(sortedClasses[..i + 1]);
      var g := sortedClasses[i].0;
      if g !in seen {
        sortedGrades := sortedGrades + [g];
        seen := seen + {g};
      }
    }
    assert sortedClasses[..|sortedClasses|] == sortedClasses;

    finalDfs, allLogs, allChanges := [], [], [];
    for i := 0 to |sortedGrades|
      invariant var o := AllGrades(df, sortedGrades[..i], targets);
                finalDfs == o.rosters && allLogs == o.summaries && allChanges == o.changes
    {
      AllGradesOneMore(df, sortedGrades, targets, i);
      var grade := sortedGrades[i];
      var processed, logs, changes := ProcessGradeData(GradeRows(df, grade), targets, grade);
      finalDfs := finalDfs + processed;
      allLogs := allLogs + logs;
      allChanges := allChanges + changes;
    }
    assert sortedGrades[..|sortedGrades|] == sortedGrades;
  }

  lemma AllGradesOneMore(df: seq<Row>, grades: seq<Label>, targets: map<ClassKey, nat>, i: nat)
    requires i < |grades|
    ensures var o, r := AllGrades(df, grades[..i], targets), Rebalanced(GradeRows(df, grades[i]), targets, grades[i]);
            AllGrades(df, grades[..i + 1], targets) == Outcome(o.rosters + r.rosters, o.summaries + r.summaries, o.changes + r.changes)
  {
    assert grades[..i + 1][..i] == grades[..i];
  }
}

=== FILE: Wrappers.dfy ===
/** Optional values: a dictionary lookup that may miss, a parse that may fail. */
module Wrappers {

  datatype Option<+T> = None | Some(value: T) {

    /** The wrapped value, or `default` when there is none (Python's `dict.get(key, default)`). */
    function GetOr(default: T): T {
      match this
      case Some(v) => v
      case None => default
    }
  }
}
